=== FILE: README.md ===
# Todo app core, modelled in Dafny

A model of the core of a small Next.js todo application and proofs about
it. The model covers:

- **Text rules** (`src/lib/shared.ts`). `normalize` trims, lower-cases and collapses whitespace runs. `isDuplicate` compares normal forms. `backendMode` reads the data-backend variables.
- **The in-memory repository** (`src/lib/repos/dummy-repo.ts`). It provides `dList`, `dCreate`, `dUpdate` and `dDelete` over one list of todos.
- **The repository switch** (`src/lib/repos/switch.ts`). `resolveTodoMode` and `modeFromRequest` choose the "dummy" or "live" backend for a request. `normalizeRepo` reads a repository module's exports as the four-operation interface, and `getRepo` picks the module.
- **The page's pure logic** (`src/app/page.tsx`):
  - the `filtered` search memo;
  - the checks `submit` makes and the request bodies it sends;
  - how `onRemove` and `onToggle` update the local copy of the list;
  - `onEdit` and the Escape key.

The model is functional:

- The repository's store is a value threaded through the operations. Each operation returns a `Step(store, out)`, where `out` is the returned value or the thrown message.
- Each page handler takes the state it reads and the outcome of the request it sends. It returns the next state, the request (`Put`, `Post` or `Delete`) and whether it reloads the list.
- The fresh id (`makeId`, `uuid`) and the current time (`new Date().toISOString()`) are parameters.

Modules, one per concern:

| file | module | models |
|---|---|---|
| wrappers.dfy | `Wrappers` | `Option` (undefined/null, `??`) and `Result` (value or thrown error) |
| jsstring.dfy | `JsString` | the JavaScript string built-ins the core uses: `trim`, `toLowerCase`, `replace(/\s+/g, " ")`, `includes`, `<` |
| types.dfy | `Types` | `Todo`, the environment variables read, `findIndex` by id |
| seqs.dfy | `Seqs` | `Array.prototype.filter` and subsequences |
| shared.dfy | `Shared` | `normalize`, `isDuplicate`, `backendMode` |
| words.dfy | `Words` | a reference definition of the normal form, as lower-cased words joined by single spaces |
| dummy_repo.dfy | `DummyRepo` | `dList`, `dCreate`, `dUpdate`, `dDelete` |
| repo_switch.dfy | `RepoSwitch` | `resolveTodoMode`, `modeFromRequest`, `normalizeRepo`, `getRepo` |
| page.dfy | `Page` | `filtered`, `submit`, `onRemove`, `onToggle`, `onEdit`, Escape |
| scenarios.dfy | `Scenarios` | the page and the repository together: what each request does to the store, and how the page's copy compares with it |

## Model

| member | source | states |
|---|---|---|
| `JsString.Trim` | src/lib/shared.ts:16 | `trim` returns a contiguous slice of the input with only whitespace cut on either side, and the slice neither starts nor ends with whitespace |
| `JsString.CollapseSpaces` | src/lib/shared.ts:16 | the `\s+` → `" "` replacement leaves no whitespace except single `' '`s, keeps the absence of upper-case letters, is empty only for empty input, and preserves whether the first and last characters are whitespace; its content is pinned by `Words.CollapseIsSpacedWords` |
| `JsString.LowerChar` | src/lib/shared.ts:16 | `toLowerCase` on one character: the result is never an upper-case letter, is whitespace exactly when the input is, and equals the input unless that is an upper-case letter |
| `JsString.Lower` | src/lib/shared.ts:5 | `toLowerCase` keeps the length and lower-cases each character in place |
| `JsString.LowerIdempotent` | src/lib/repos/switch.ts:50-53 | lower-casing an already lower-cased value changes nothing, so the second `toLowerCase` in `resolveTodoMode` is harmless |
| `JsString.TrimIdempotent` | src/app/api/todo/route.ts:12 | trimming twice is trimming once, so text the page has trimmed survives the handlers' own `trim` unchanged |
| `JsString.Includes` | src/app/page.tsx:135 | `includes`: a found needle is no longer than the haystack, and the empty needle is found in every haystack |
| `JsString.Less` | src/lib/repos/dummy-repo.ts:19 | the string `<` is irreflexive, and a proper prefix is less than the string it begins |
| `JsString.IncludesIsSubstring` | src/app/page.tsx:135 | `includes` holds exactly when the needle occurs at some offset of the haystack |
| `JsString.NotLessTransitive` | src/lib/repos/dummy-repo.ts:19 | "not older than" under the string `<` is transitive, so the newest-first order the sort produces is consistent |
| `JsString.LessTotal` | src/lib/repos/dummy-repo.ts:19 | any two different timestamp strings are ordered one way or the other by `<` |
| `Shared.Normalize` | src/lib/shared.ts:16 | a normal form has no whitespace at either end, only single spaces inside and no upper-case letters |
| `Shared.NormalizeFixesCanonical` | src/lib/shared.ts:16 | text already in that shape is its own normal form |
| `Shared.NormalizeIdempotent` | src/lib/shared.ts:16 | normalising twice is the same as normalising once |
| `Shared.NormalizeIgnoresCase` | src/lib/shared.ts:16 | lower-casing first does not change the normal form |
| `Shared.TrimLower` | src/lib/shared.ts:16 | trimming and lower-casing commute |
| `Shared.CollapseFixesSingleSpaced` | src/lib/shared.ts:16 | the whitespace replacement changes nothing in text that already has only single spaces |
| `Words.NormalizeIsJoinedWords` | src/lib/shared.ts:16 | the normal form equals the lower-cased words of the input joined by single spaces, a definition independent of how `normalize` computes it |
| `Words.WordsOfJoin` | src/lib/shared.ts:16 | splitting words joined by single spaces gives the words back (round trip) |
| `Words.SameNormalFormIffSameWords` | src/lib/shared.ts:16 | two texts have the same normal form exactly when their lower-cased words are the same: normalisation forgets only case and the length and kind of whitespace runs |
| `Words.WordsOfTrim` | src/lib/shared.ts:16 | whitespace around a text does not change its words |
| `Words.CollapseIsSpacedWords` | src/lib/shared.ts:16 | on every text, replacing each whitespace run with one space gives the words of the text joined by single spaces. One space stands in front when the text starts with whitespace, and one behind when it has a word and ends with whitespace. All-whitespace text becomes a single space |
| `Words.CollapseIsJoin` | src/lib/shared.ts:16 | on text with no whitespace at either end, collapsing whitespace runs equals joining the words with single spaces |
| `Shared.NormalizeTrim` | src/lib/shared.ts:16 | trimming before normalising changes nothing, so the page's trimmed text normalises like the raw input |
| `Shared.AnyNormalizesTo` | src/lib/shared.ts:18 | `todos.some(...)`: holds exactly when some todo's normalised text is the given normal form |
| `Shared.IsDuplicate` | src/lib/shared.ts:17-18 | a query is a duplicate exactly when its normal form is non-empty and equals the normal form of some todo's text |
| `Shared.IsDuplicateOnlyThroughNormalize` | src/lib/shared.ts:17-18 | queries with the same normal form are duplicates of the same lists |
| `Shared.IsDuplicateMonotone` | src/lib/shared.ts:17-18 | a duplicate of a list is a duplicate of any list containing it |
| `Shared.NeverDuplicateOfEmpty` | src/lib/shared.ts:17-18 | a query normalising to nothing is never a duplicate, and nothing duplicates an empty list |
| `Shared.BackendMode` | src/lib/shared.ts:4-7 | NEXT_PUBLIC_DATA_BACKEND, then DATA_BACKEND, then "dummy" decides; only a value lower-casing to "dummy" selects the dummy backend |
| `Seqs.Filter` | src/app/page.tsx:201 | `Array.prototype.filter`: every kept element passes the test, and each element passing it is kept exactly as often as it occurs in the input |
| `Seqs.FilterIsSubsequence` | src/app/page.tsx:201 | the filtered elements keep their relative order |
| `Types.FindIndex` | src/lib/repos/dummy-repo.ts:35 | `findIndex` by id: absent exactly when no record has the id, otherwise the first position that has it |
| `DummyRepo.Insert` | src/lib/repos/dummy-repo.ts:19 | inserting into a newest-first list keeps it newest-first and adds exactly the inserted record |
| `DummyRepo.SortNewestFirst` | src/lib/repos/dummy-repo.ts:19 | the sort's result is a permutation of its input, in non-increasing `createdAt` order |
| `DummyRepo.List` | src/lib/repos/dummy-repo.ts:17-20 | `dList` leaves the store alone and returns a permutation of it, newest first |
| `DummyRepo.Create` | src/lib/repos/dummy-repo.ts:22-32 | `dCreate` puts the new row in front of the store. Each field is taken from the input when present, otherwise the defaults apply: the fresh id, `false`, the current time |
| `DummyRepo.Merge` | src/lib/repos/dummy-repo.ts:37 | object spread: each property the patch carries overrides the record's, and every other property is kept |
| `DummyRepo.Update` | src/lib/repos/dummy-repo.ts:34-39 | `dUpdate` throws "Not found" and leaves the store unchanged for an absent id; otherwise it merges the patch into the first record with the id, changes nothing else and returns the merged record |
| `DummyRepo.Delete` | src/lib/repos/dummy-repo.ts:41-44 | `dDelete` removes the first record with the id and leaves the store unchanged for an absent id; it never throws |
| `DummyRepo.CreateThenList` | src/lib/repos/dummy-repo.ts:17-32 | a created row is in the next list |
| `DummyRepo.CreateThenDelete` | src/lib/repos/dummy-repo.ts:22-44 | deleting the id just created restores the previous store, even if the id was already stored further back |
| `DummyRepo.CreateAllowsDuplicateIds` | src/lib/repos/dummy-repo.ts:22-31 | `dCreate` does not check ids: creating with a stored id leaves two records with it |
| `DummyRepo.CreateKeepsUniqueIds` | src/lib/repos/dummy-repo.ts:22-31 | creating keeps ids unique exactly when the new id is not stored yet |
| `DummyRepo.UpdateKeepsIdentity` | src/lib/repos/dummy-repo.ts:34-39 | a patch of text and flag only keeps the record's id and creation time, the store's length and ids, and every other record |
| `DummyRepo.UpdateKeepsUniqueIds` | src/lib/repos/dummy-repo.ts:34-39 | a patch without an id keeps ids unique |
| `DummyRepo.DeleteRemovesOne` | src/lib/repos/dummy-repo.ts:41-44 | deleting a stored id removes exactly one record, the first with that id, and keeps the others in order |
| `DummyRepo.DeleteKeepsUniqueIds` | src/lib/repos/dummy-repo.ts:41-44 | deleting keeps ids unique |
| `DummyRepo.DeleteIdempotentWhenUnique` | src/lib/repos/dummy-repo.ts:41-44 | with unique ids, deleting twice is the same as deleting once |
| `DummyRepo.DeleteNotIdempotentWithDuplicates` | src/lib/repos/dummy-repo.ts:41-44 | with a repeated id, a second delete removes a second record |
| `RepoSwitch.ResolveTodoMode` | src/lib/repos/switch.ts:49-56 | a requested value (even an empty one) decides, else TODO_MODE_DEFAULT, else NEXT_PUBLIC_TODO_MODE_DEFAULT, else "dummy". Only "live" or "supabase", in any letter case, gives the live mode |
| `RepoSwitch.ResolveIgnoresCase` | src/lib/repos/switch.ts:53-54 | the requested value is matched without regard to letter case |
| `RepoSwitch.EmptyRequestIsDummy` | src/lib/repos/switch.ts:53 | an empty requested value is not replaced by the environment default and gives the dummy mode |
| `RepoSwitch.ModeFromRequest` | src/lib/repos/switch.ts:58-61 | the `x-todo-mode` header, when present, is resolved; otherwise the `mode` query parameter is |
| `RepoSwitch.HeaderHidesParam` | src/lib/repos/switch.ts:60 | when the header is present, the query parameter has no effect |
| `RepoSwitch.Innermost` | src/lib/repos/switch.ts:20-22 | following `default` objects ends at a module without an object `default` |
| `RepoSwitch.NormalizeRepo` | src/lib/repos/switch.ts:19-47 | after unwrapping `default` objects: any d-prefixed name wins; otherwise all four full names are needed; otherwise any short name suffices. Slots the chosen naming lacks stay undefined. Any other shape fails and reports the exported keys |
| `RepoSwitch.DefaultIsUnwrapped` | src/lib/repos/switch.ts:20-22 | an object `default` export is looked through, whatever else the module exports |
| `RepoSwitch.NonObjectDefaultIsKept` | src/lib/repos/switch.ts:20-35 | a `default` that is null, a function or a primitive is not unwrapped and does not change which shape is recognised |
| `RepoSwitch.OnePrefixedNameWins` | src/lib/repos/switch.ts:24-31 | one d-prefixed name beats a complete set of full names, and the missing d-slots stay undefined |
| `RepoSwitch.ThreeFullNamesFail` | src/lib/repos/switch.ts:33-46 | three of the four full names are not a recognised shape |
| `RepoSwitch.DummyModuleIsRecognised` | src/lib/repos/dummy-repo.ts:46-51 | the dummy module is recognised through its default object, with every slot bound to the d-function of the same operation |
| `RepoSwitch.SupabaseModuleIsRecognised` | src/lib/repos/supabase-repo.ts:85 | the Supabase module is recognised through its default object, with every slot bound to its own function |
| `RepoSwitch.GetRepo` | src/lib/repos/switch.ts:63-70 | the live mode loads the Supabase repository and the dummy mode the in-memory one, and both always normalise successfully |
| `RepoSwitch.RequestSelectsRepo` | src/lib/repos/switch.ts:58-70 | a request whose header names the live backend in any letter case ("SUPABASE") is served by the Supabase repository whatever its query parameter and the environment say, and one with any other header by the in-memory repository; a request with neither header nor parameter, under an environment without defaults, is served by the in-memory repository |
| `Page.Filtered` | src/app/page.tsx:132-136 | a blank query shows everything; otherwise the shown todos are exactly those whose normal form contains the query's normal form, in list order and with their multiplicities |
| `Page.FilteredIsSubstringSearch` | src/app/page.tsx:135 | for a non-blank query, a todo is shown exactly when its normal form has the query's normal form at some offset |
| `Page.OwnTextIsFound` | src/app/page.tsx:132-136 | typing a todo's own text, in any case or spacing, keeps that todo in view |
| `Page.DupBase` | src/app/page.tsx:146 | while editing, the duplicate check skips exactly the records with the edited id; otherwise it sees the whole list |
| `Page.UpdateBody` | src/app/page.tsx:152-161 | the PUT body for an edit carries the edited id and the trimmed text. It keeps the stored record's flag and timestamp, or uses `false` and the current time when the record is not in the list |
| `Page.Submit` | src/app/page.tsx:140-189 | blank input warns "Todo cannot be empty." and a duplicate warns "Duplicate todo. Please enter a unique one.", both without a request. Otherwise an edit sends a PUT and a new todo a POST of the trimmed text. Success clears the input (and the edit) and reloads; failure shows the error |
| `Page.SubmitSendsOnlyFreshText` | src/app/page.tsx:141-147 | any request `submit` sends has non-blank, already-trimmed text whose normal form differs from every other todo's |
| `Page.ResaveIsNotDuplicate` | src/app/page.tsx:146-161 | re-saving an edited todo's own text is not flagged as a duplicate of itself; it sends a PUT of the same record with its text trimmed |
| `Page.OnRemove` | src/app/page.tsx:195-207 | on success, every record with the id leaves the local list and the rest keep their order and counts; on failure only the warning changes |
| `Page.Flipped` | src/app/page.tsx:223 | the toggled record differs from the original in the completion flag only |
| `Page.ToggleMirror` | src/app/page.tsx:228 | the records with the id have their flag flipped in place and the others are kept |
| `Page.ToggleTwiceRestores` | src/app/page.tsx:228 | toggling the same id twice restores the local list |
| `Page.OnToggle` | src/app/page.tsx:213-234 | sends a PUT of the record with its flag flipped; on success flips the local records with that id, and on failure shows the error |
| `Page.OnEdit` | src/app/page.tsx:240-245 | starts editing the todo with its text in the input and clears the warning |
| `Page.Escape` | src/app/page.tsx:275-279 | leaves editing and clears the input and the warning, keeping the list |
| `Page.EscapeShowsEverything` | src/app/page.tsx:275-279 | after Escape nothing is being edited and the search shows the whole list |
| `Page.EditThenEscape` | src/app/page.tsx:240-245 | Escape undoes an edit's start completely |
| `Scenarios.CreateInputOf` | src/app/api/todo/route.ts:12-26 | the POST route hands the repository every field of the body with the text trimmed, so the text that arrives is trimmed and an already trimmed text arrives unchanged (its effect on a store: `Scenarios.RoutesKeepTextsTrimmed`) |
| `Scenarios.PatchOf` | src/app/api/todo/route.ts:12 | the PUT route (same trimming schema; line 29 of `src/app/api/todo/[id]/route.ts` picks the fields) hands the repository the trimmed text and the completion flag and never an id or creation time (pinned on a record by `Scenarios.FlipThroughRoute`) |
| `Scenarios.SubmitCreateKeepsTextsDistinct` | src/app/page.tsx:146-185 | if the store holds the page's list and no two texts share a normal form, the same holds after the POST `submit` sends is created |
| `Scenarios.SubmitEditKeepsTextsDistinct` | src/app/page.tsx:146-166 | with unique ids, the PUT of an edit keeps the store's normal forms distinct |
| `Scenarios.UpdateKeepsDistinct` | src/lib/repos/dummy-repo.ts:34-39 | with unique ids, writing a text whose normal form no record under another id has keeps the normal forms distinct |
| `Scenarios.ToggleMirrorsServer` | src/app/page.tsx:217-228 | with unique ids, when the store holds the page's list (as it does while its insertion order is newest first, since the page holds `dList`'s sorted copy), after a successful toggle of a record whose text is trimmed the page's list equals the store after the PUT the route forwards (every record of a store filled through the routes is such a record, by `Scenarios.RoutesKeepTextsTrimmed`) |
| `Scenarios.ToggleOfUniqueId` | src/app/page.tsx:228 | with unique ids, the page's toggle mirror flips exactly the one record with the id and leaves every other record alone |
| `Scenarios.FlipThroughRoute` | src/lib/repos/dummy-repo.ts:34-39 | `dUpdate`, given the trimmed `todo` and the `isCompleted` that the PUT route forwards, stores a flipped record with trimmed text exactly as the page sent it |
| `Scenarios.RoutesKeepTextsTrimmed` | src/app/api/todo/route.ts:12-26 | the routes trim the text they pass on, so a store whose texts are all trimmed keeps them trimmed through every POST, PUT and DELETE |
| `Scenarios.RemoveMirrorsServer` | src/app/page.tsx:199-201 | with unique ids, when the store holds the page's list (as it does while its insertion order is newest first), after a successful remove the page's list equals the store after the DELETE |
| `Scenarios.DeleteIsFilter` | src/lib/repos/dummy-repo.ts:41-44 | with unique ids, `dDelete` removes exactly the records the page's filter removes |
| `Scenarios.RemoveWithDuplicateIdsDiverges` | src/app/page.tsx:201 | with a repeated id, the page drops every record with it and the store only the first |
| `Scenarios.CreateThenComplete` | src/lib/repos/dummy-repo.ts:22-39 | a record created through the POST route and then marked completed is listed completed, with its text as the route trimmed it and its creation time unchanged |
| `Scenarios.BuyMilkIsRejected` | src/app/page.tsx:144-147 | with "Buy milk" stored, typing "buy MILK" is turned away as a duplicate without a request, and the store still lists only the first record |
| `Scenarios.TurnedAway` | src/app/page.tsx:147 | a trimmed, non-empty duplicate query gets the duplicate warning and no request |
| `Scenarios.NormalizesTo` | src/lib/shared.ts:16 | a text whose lower-cased form is already canonical normalises to that form |

## Left out

- `makeId` and `uuid` are not modelled: the id they produce is the `freshId` parameter. The current time is the `now` parameter.
- `supabase-repo.ts` is not part of this model: the database calls and the `toIso`/`toMs` conversions. Only its export table is modelled, as `RepoSwitch.SupabaseRepoModule`, because `normalizeRepo` reads it.
- The route handlers `src/app/api/todo/route.ts` and `src/app/api/todo/[id]/route.ts` are not part of this model: zod validation, the "Body id must match URL id" check and HTTP status codes. `Scenarios.CreateInputOf` and `Scenarios.PatchOf` write out only the trimming of `todo` (`z.string().trim()`) and the field forwarding the scenarios need; the rejection of a text that trims to empty is left out with the rest of the validation.
- The forwarding functions `listTodos`/`createTodo`/`updateTodo`/`deleteTodo` in `switch.ts` (lines 72-89) call `getRepo(mode)` and then the chosen slot, so they are `RepoSwitch.GetRepo` followed by the `DummyRepo` operation. They are not written out again.
- `readJson`, `apiFetch`, `load`, the realtime subscription, `localStorage`, and the `loading`/`error`/`todoMode` state are left out: they are network, storage or rendering. A response is a `Result` given to each handler, and `reload` records that `load()` follows.
- Concurrency and interleaving of asynchronous handlers (the 25 ms delay in `dList`, stale closures in `useCallback`) are not modelled. Each handler is one atomic step.
- `JsString.LowerChar` maps only ASCII `A`-`Z`. Unicode case mapping (including letters whose lower case has a different length) is left out.
- `JsString.Less` compares characters by code point. JavaScript compares UTF-16 code units, which differ only between characters above U+FFFF and U+E000-U+FFFF. The timestamps compared are ASCII.
- `DummyRepo.List` assumes a sorting engine that trusts only the comparisons it makes. The source's comparator `(a, b) => (a.createdAt < b.createdAt ? 1 : -1)` returns -1 for `compare(a, a)`, and for equal timestamps in both directions. It is therefore not a consistent comparator, and section 23.1.3.30 of ECMA-262 (`Array.prototype.sort`) then leaves the sort order implementation-defined: only the permutation is guaranteed. The newest-first order in the contract is what merge-based sorts such as those of current engines produce, since every comparison such a sort acts on agrees with the weak order on `createdAt`. The model also fixes one order for records with equal `createdAt`, where engines may differ.
- `DummyRepo.Merge`: a patch property that is present but `undefined` overrides with `undefined` in the source. The model treats it as absent, because the callers never send one.
- `RepoSwitch.NormalizeRepo` models only finitely nested `default` objects. A module whose `default` chain loops back to itself, such as one that re-exports its own namespace as `default`, makes the source recurse until the stack overflows. A `RepoSwitch.Value` cannot represent such a cycle.
- `RepoSwitch.NormalizeRepo` reports the exported keys as a set. The source's message lists them joined with ", " in property order.
- `RepoSwitch.NormalizeRepo` treats any `default` export the same way, regardless of the module's type. The `default` export of a module object is modelled as a map entry.
- `Page.DupBase` states which records the duplicate check sees, not their order or count, because `isDuplicate` depends only on membership.
- Rendering (JSX, the "No result" hint, focus handling) is left out.

=== FILE: dummy_repo.dfy ===
/** The in-memory repository: one sequence of todos, newest insertion first,
    threaded through the four operations as a value. Every operation returns
    the store after the call together with what the call returned or threw. */
module DummyRepo {
  import opened Wrappers
  import opened Types
  import opened JsString
  import opened Seqs

  type Store = seq<Todo>

  /** The store after an operation, and the operation's value or error. */
  datatype Step<T> = Step(store: Store, out: Result<T, string>)

  /** The message `dUpdate` throws for an id it cannot find. */
  const NotFound: string := "Not found"

  // ---------------------------------------------------------------- list

  /** Non-increasing by `createdAt` under the string `<`. */
  predicate NewestFirst(s: seq<Todo>) {
    forall i, j :: 0 <= i < j < |s| ==> !Less(s[i].createdAt, s[j].createdAt)
  }

  /** Places `x` before the first element it is not older than. */
  function Insert(x: Todo, s: seq<Todo>): (r: seq<Todo>)
    requires NewestFirst(s)
    ensures NewestFirst(r)
    ensures multiset(r) == multiset(s) + multiset{x}
  {
    if s == [] || !Less(x.createdAt, s[0].createdAt) then
      forall j | 0 <= j < |s|
        ensures !Less(x.createdAt, s[j].createdAt)
      {
        if j > 0 {
          NotLessTransitive(x.createdAt, s[0].createdAt, s[j].createdAt);
        }
      }
      ConsNewestFirst(x, s);
      [x] + s
    else
      var rest := Insert(x, s[1..]);
      forall j | 0 <= j < |rest|
        ensures !Less(s[0].createdAt, rest[j].createdAt)
      {
        assert rest[j] in multiset(rest);
        if rest[j] == x {
          if Less(s[0].createdAt, x.createdAt) {
            LessTransitive(x.createdAt, s[0].createdAt, x.createdAt);
            LessIrreflexive(x.createdAt);
          }
        } else {
          assert rest[j] in multiset(s[1..]);
          assert rest[j] in s[1..];
        }
      }
      ConsNewestFirst(s[0], rest);
      assert multiset(s) == multiset{s[0]} + multiset(s[1..]) by {
        assert s == [s[0]] + s[1..];
      }
      [s[0]] + rest
  }

  /** A record not older than any of a sorted list may go in front of it. */
  lemma ConsNewestFirst(y: Todo, rest: seq<Todo>)
    requires NewestFirst(rest)
    requires forall j :: 0 <= j < |rest| ==> !Less(y.createdAt, rest[j].createdAt)
    ensures NewestFirst([y] + rest)
  {
    var r := [y] + rest;
    forall i, j | 0 <= i < j < |r|
      ensures !Less(r[i].createdAt, r[j].createdAt)
    {
      assert r[j] == rest[j - 1];
      if i > 0 {
        assert r[i] == rest[i - 1];
      }
    }
  }

  /** The sort `dList` performs, as an insertion sort. */
  function SortNewestFirst(s: seq<Todo>): (r: seq<Todo>)
    ensures NewestFirst(r)
    ensures multiset(r) == multiset(s)
  {
    if s == [] then []
    else
      assert s == [s[0]] + s[1..];
      Insert(s[0], SortNewestFirst(s[1..]))
  }

  /** `dList`: a copy of the store, newest first; the store is left alone. */
  function List(store: Store): (r: Step<seq<Todo>>)
    ensures r.store == store
    ensures r.out.Success?
    ensures multiset(r.out.value) == multiset(store)
    ensures NewestFirst(r.out.value)
  {
    Step(store, Success(SortNewestFirst(store)))
  }

  // -------------------------------------------------------------- create

  /** The input of `dCreate`; `None` is an absent (or non-string,
      non-boolean) property. */
  datatype CreateInput = CreateInput(
    id: Option<string>, todo: string, isCompleted: Option<bool>, createdAt: Option<string>)

  /** `dCreate`: builds the row from the input and its defaults and puts it at
      the front. `freshId` stands for `makeId()` and `now` for the current
      time as an ISO string; each is used only when the input lacks the
      field. */
  function Create(store: Store, input: CreateInput, freshId: string, now: string): (r: Step<Todo>)
    ensures r.out.Success?
    ensures r.store == [r.out.value] + store
    ensures r.out.value.todo == input.todo
    ensures r.out.value.id == (if input.id.Some? then input.id.value else freshId)
    ensures r.out.value.isCompleted == (input.isCompleted.Some? && input.isCompleted.value)
    ensures r.out.value.createdAt == (if input.createdAt.Some? then input.createdAt.value else now)
  {
    var createdAt := input.createdAt.GetOr(now);
    var row := Todo(input.id.GetOr(freshId), input.todo, input.isCompleted.GetOr(false), createdAt);
    Step([row] + store, Success(row))
  }

  // -------------------------------------------------------------- update

  /** The properties a patch may carry; `None` is an absent property. */
  datatype Patch = Patch(
    id: Option<string>, todo: Option<string>, isCompleted: Option<bool>, createdAt: Option<string>)

  /** `{ ...t, ...patch }`: each property the patch carries overrides the
      record's. */
  function Merge(t: Todo, patch: Patch): (r: Todo)
    ensures patch.id.None? ==> r.id == t.id
    ensures patch.todo.None? ==> r.todo == t.todo
    ensures patch.isCompleted.None? ==> r.isCompleted == t.isCompleted
    ensures patch.createdAt.None? ==> r.createdAt == t.createdAt
    ensures patch.id.Some? ==> r.id == patch.id.value
    ensures patch.todo.Some? ==> r.todo == patch.todo.value
    ensures patch.isCompleted.Some? ==> r.isCompleted == patch.isCompleted.value
    ensures patch.createdAt.Some? ==> r.createdAt == patch.createdAt.value
  {
    Todo(patch.id.GetOr(t.id), patch.todo.GetOr(t.todo),
         patch.isCompleted.GetOr(t.isCompleted), patch.createdAt.GetOr(t.createdAt))
  }

  /** `dUpdate`: merges the patch into the first record with the id, or
      throws "Not found" and leaves the store as it was. */
  function Update(store: Store, id: string, patch: Patch): (r: Step<Todo>)
    ensures Absent(store, id) ==> r == Step(store, Failure(NotFound))
    ensures forall i {:trigger FirstMatch(store, id, i)} :: FirstMatch(store, id, i) ==>
      && r.out == Success(Merge(store[i], patch))
      && r.store == store[i := Merge(store[i], patch)]
  {
    match FindIndex(store, id)
    case None => Step(store, Failure(NotFound))
    case Some(i) =>
      var row := Merge(store[i], patch);
      Step(store[i := row], Success(row))
  }

  // -------------------------------------------------------------- delete

  /** `dDelete`: removes the first record with the id; an absent id is not an
      error and changes nothing. */
  function Delete(store: Store, id: string): (r: Step<()>)
    ensures r.out == Success(())
    ensures Absent(store, id) ==> r.store == store
    ensures forall i {:trigger FirstMatch(store, id, i)} :: FirstMatch(store, id, i) ==>
      r.store == store[..i] + store[i + 1..]
  {
    match FindIndex(store, id)
    case None => Step(store, Success(()))
    case Some(i) => Step(store[..i] + store[i + 1..], Success(()))
  }

  // ---------------------------------------------------------- properties

  /** A created row is found by the next list. */
  lemma CreateThenList(store: Store, input: CreateInput, freshId: string, now: string)
    ensures var c := Create(store, input, freshId, now);
      c.out.value in List(c.store).out.value
  {
    var c := Create(store, input, freshId, now);
    assert c.out.value in multiset(c.store);
  }

  /** Deleting the id just created undoes the creation, even when the store
      already held that id further back. */
  lemma CreateThenDelete(store: Store, input: CreateInput, freshId: string, now: string)
    ensures var c := Create(store, input, freshId, now);
      Delete(c.store, c.out.value.id).store == store
  {
    var c := Create(store, input, freshId, now);
    assert FirstMatch(c.store, c.out.value.id, 0);
    assert c.store[1..] == store;
  }

  /** `dCreate` does not look for an existing id: creating with an id that is
      already stored leaves two records with it. */
  lemma CreateAllowsDuplicateIds(store: Store, input: CreateInput, freshId: string, now: string)
    requires input.id.Some? && !Absent(store, input.id.value)
    ensures !UniqueIds(Create(store, input, freshId, now).store)
  {
    var c := Create(store, input, freshId, now);
    var k :| 0 <= k < |store| && store[k].id == input.id.value;
    assert c.store[0].id == c.store[k + 1].id;
  }

  /** Creating keeps ids unique exactly when the new id is not stored yet. */
  lemma CreateKeepsUniqueIds(store: Store, input: CreateInput, freshId: string, now: string)
    requires UniqueIds(store)
    ensures var c := Create(store, input, freshId, now);
      UniqueIds(c.store) <==> Absent(store, c.out.value.id)
  {
    var c := Create(store, input, freshId, now);
    if !Absent(store, c.out.value.id) {
      var k :| 0 <= k < |store| && store[k].id == c.out.value.id;
      assert c.store[0].id == c.store[k + 1].id;
    }
  }

  /** A patch of only `todo` and `isCompleted` keeps the record's id and
      creation time, keeps the store's length and ids, and touches no other
      record. */
  lemma UpdateKeepsIdentity(store: Store, id: string, patch: Patch, i: nat)
    requires patch.id.None? && patch.createdAt.None?
    requires FirstMatch(store, id, i)
    ensures var r := Update(store, id, patch);
      && r.out.Success?
      && r.out.value.id == id && r.out.value.createdAt == store[i].createdAt
      && |r.store| == |store|
      && (forall j :: 0 <= j < |store| ==> r.store[j].id == store[j].id)
      && (forall j :: 0 <= j < |store| && j != i ==> r.store[j] == store[j])
  {
  }

  /** Such a patch keeps ids unique. */
  lemma UpdateKeepsUniqueIds(store: Store, id: string, patch: Patch)
    requires patch.id.None? && UniqueIds(store)
    ensures UniqueIds(Update(store, id, patch).store)
  {
    match FindIndex(store, id)
    case None =>
    case Some(i) =>
      var r := Update(store, id, patch).store;
      assert forall j :: 0 <= j < |store| ==> r[j].id == store[j].id;
  }

  /** Deleting a stored id removes exactly one record and keeps the order of
      the others. */
  lemma DeleteRemovesOne(store: Store, id: string)
    requires !Absent(store, id)
    ensures var r := Delete(store, id).store;
      |r| == |store| - 1 && IsSubsequence(r, store)
      && multiset(r) + multiset{FirstOf(store, id)} == multiset(store)
  {
    var i := FindIndex(store, id).value;
    assert FirstMatch(store, id, i);
    RemoveAt(store, i);
  }

  /** The record `dDelete` and `dUpdate` act on. */
  function FirstOf(store: Store, id: string): (t: Todo)
    requires !Absent(store, id)
    ensures t in store && t.id == id
  {
    store[FindIndex(store, id).value]
  }

  lemma DeleteKeepsUniqueIds(store: Store, id: string)
    requires UniqueIds(store)
    ensures UniqueIds(Delete(store, id).store)
  {
    match FindIndex(store, id)
    case None =>
    case Some(i) =>
      var r := Delete(store, id).store;
      assert forall j :: 0 <= j < |r| ==> r[j] == if j < i then store[j] else store[j + 1];
  }

  /** With unique ids, deleting twice is deleting once. */
  lemma DeleteIdempotentWhenUnique(store: Store, id: string)
    requires UniqueIds(store)
    ensures var once := Delete(store, id).store;
      Delete(once, id).store == once
  {
    match FindIndex(store, id)
    case None =>
    case Some(i) =>
      var once := Delete(store, id).store;
      assert forall j :: 0 <= j < |once| ==> once[j] == if j < i then store[j] else store[j + 1];
      assert Absent(once, id);
  }

  /** Without unique ids, which `dCreate` permits, a second delete of the
      same id removes another record. */
  lemma DeleteNotIdempotentWithDuplicates()
    ensures var a := Todo("x", "first", false, "2024-01-01T00:00:00.000Z");
      var b := Todo("x", "second", false, "2024-01-02T00:00:00.000Z");
      var once := Delete([a, b], "x").store;
      once == [b] && Delete(once, "x").store == []
  {
    var a := Todo("x", "first", false, "2024-01-01T00:00:00.000Z");
    var b := Todo("x", "second", false, "2024-01-02T00:00:00.000Z");
    assert FirstMatch([a, b], "x", 0);
    assert FirstMatch([b], "x", 0);
  }
}

=== FILE: jsstring.dfy ===
/** The handful of JavaScript string built-ins the todo app relies on, over
    strings as sequences of characters: `trim`, `toLowerCase`, the global
    replacement of `\s+` by one space, `includes`, and the relational `<`. */
module JsString {

  /** The ECMAScript WhiteSpace and LineTerminator code points. This one class
      is what `String.prototype.trim` strips and what the regular-expression
      escape `\s` matches. */
  predicate IsSpace(c: char) {
    || c == '\t' || c == '\n' || c == '\U{000B}' || c == '\U{000C}' || c == '\r'
    || c == ' ' || c == '\U{00A0}' || c == '\U{1680}'
    || ('\U{2000}' <= c <= '\U{200A}')
    || c == '\U{2028}' || c == '\U{2029}' || c == '\U{202F}' || c == '\U{205F}'
    || c == '\U{3000}' || c == '\U{FEFF}'
  }

  predicate IsUpper(c: char) {
    'A' <= c <= 'Z'
  }

  /** `toLowerCase` on one character, restricted to the ASCII letters. */
  function LowerChar(c: char): (r: char)
    ensures !IsUpper(r)
    ensures IsSpace(r) <==> IsSpace(c)
    ensures !IsUpper(c) ==> r == c
  {
    if IsUpper(c) then (c as int + 32) as char else c
  }

  function Lower(s: string): (r: string)
    ensures |r| == |s|
    ensures forall i :: 0 <= i < |s| ==> r[i] == LowerChar(s[i])
  {
    seq(|s|, i requires 0 <= i < |s| => LowerChar(s[i]))
  }

  predicate NoUpper(s: string) {
    forall i :: 0 <= i < |s| ==> !IsUpper(s[i])
  }

  /** Text without upper-case letters is its own lower case. */
  lemma LowerOfNoUpper(s: string)
    requires NoUpper(s)
    ensures Lower(s) == s
  {
  }

  /** Lower-casing twice is lower-casing once. */
  lemma LowerIdempotent(s: string)
    ensures Lower(Lower(s)) == Lower(s)
  {
  }

  /** Drops the maximal run of whitespace at the front of `s`. */
  function TrimStart(s: string): (r: string)
    ensures |r| <= |s| && r == s[|s| - |r|..]
    ensures forall i :: 0 <= i < |s| - |r| ==> IsSpace(s[i])
    ensures r == [] || !IsSpace(r[0])
  {
    if s != [] && IsSpace(s[0]) then TrimStart(s[1..]) else s
  }

  /** Drops the maximal run of whitespace at the back of `s`. */
  function TrimEnd(s: string): (r: string)
    ensures |r| <= |s| && r == s[..|r|]
    ensures forall i :: |r| <= i < |s| ==> IsSpace(s[i])
    ensures r == [] || !IsSpace(r[|r| - 1])
  {
    if s != [] && IsSpace(s[|s| - 1]) then TrimEnd(s[..|s| - 1]) else s
  }

  /** `String.prototype.trim`: the slice of `s` left once the whitespace at
      both ends is gone. */
  function Trim(s: string): (r: string)
    ensures var a := |s| - |TrimStart(s)|;
      && a + |r| <= |s| && r == s[a..a + |r|]
      && (forall i :: 0 <= i < a ==> IsSpace(s[i]))
      && (forall i :: a + |r| <= i < |s| ==> IsSpace(s[i]))
    ensures r == [] || (!IsSpace(r[0]) && !IsSpace(r[|r| - 1]))
  {
    var t := TrimStart(s);
    var r := TrimEnd(t);
    PrefixOfSuffix(s, t, r);
    r
  }

  /** Index bookkeeping for `Trim`: a prefix `r` of a suffix `t` of `s`,
      with only whitespace cut off. */
  lemma PrefixOfSuffix(s: string, t: string, r: string)
    requires |t| <= |s| && t == s[|s| - |t|..]
    requires forall i :: 0 <= i < |s| - |t| ==> IsSpace(s[i])
    requires t == [] || !IsSpace(t[0])
    requires |r| <= |t| && r == t[..|r|]
    requires forall i :: |r| <= i < |t| ==> IsSpace(t[i])
    requires r == [] || !IsSpace(r[|r| - 1])
    ensures var a := |s| - |t|;
      && a + |r| <= |s| && r == s[a..a + |r|]
      && (forall i :: 0 <= i < a ==> IsSpace(s[i]))
      && (forall i :: a + |r| <= i < |s| ==> IsSpace(s[i]))
    ensures r == [] || (!IsSpace(r[0]) && !IsSpace(r[|r| - 1]))
  {
    var a := |s| - |t|;
    forall i | a + |r| <= i < |s|
      ensures IsSpace(s[i])
    {
      assert s[i] == t[i - a];
    }
    if r != [] {
      assert r[0] == t[0];
    }
  }

  /** Text with no whitespace at either end is its own trim. */
  lemma TrimOfUnpadded(s: string)
    requires s == [] || (!IsSpace(s[0]) && !IsSpace(s[|s| - 1]))
    ensures Trim(s) == s
  {
    assert TrimStart(s) == s;
    assert TrimEnd(s) == s;
  }

  /** Trimming twice is trimming once. */
  lemma TrimIdempotent(s: string)
    ensures Trim(Trim(s)) == Trim(s)
  {
    TrimOfUnpadded(Trim(s));
  }

  predicate AllSpace(s: string) {
    forall i :: 0 <= i < |s| ==> IsSpace(s[i])
  }

  /** No whitespace other than single ' ' characters. */
  predicate SingleSpaced(s: string) {
    forall i :: 0 <= i < |s| && IsSpace(s[i]) ==>
      s[i] == ' ' && (i + 1 < |s| ==> !IsSpace(s[i + 1]))
  }

  /** `s.replace(/\s+/g, " ")`: every maximal run of whitespace becomes one
      space, every other character is kept in place. */
  function CollapseSpaces(s: string): (r: string)
    ensures SingleSpaced(r)
    ensures NoUpper(s) ==> NoUpper(r)
    ensures r == [] <==> s == []
    ensures r != [] ==> (IsSpace(r[0]) <==> IsSpace(s[0]))
    ensures r != [] ==> (IsSpace(r[|r| - 1]) <==> IsSpace(s[|s| - 1]))
    decreases |s|
  {
    if s == [] then []
    else if IsSpace(s[0]) then
      var rest := TrimStart(s);
      assert rest == s[|s| - |rest|..];
      var tail := CollapseSpaces(rest);
      assert tail != [] ==> !IsSpace(tail[0]);
      [' '] + tail
    else
      var tail := CollapseSpaces(s[1..]);
      [s[0]] + tail
  }

  /** Text not starting with whitespace is its own `TrimStart`. */
  lemma TrimStartOfUnpadded(s: string)
    requires s == [] || !IsSpace(s[0])
    ensures TrimStart(s) == s
  {
  }

  /** A string is its head then its tail; a lemma so that the collapse facts
      in scope at its call stay out of its proof. */
  lemma HeadTail(s: string)
    requires s != []
    ensures [s[0]] + s[1..] == s
  {
  }

  /** A character that is not whitespace is kept, then the rest collapsed. */
  lemma CollapseOfNonSpace(s: string)
    requires s != [] && !IsSpace(s[0])
    ensures CollapseSpaces(s) == [s[0]] + CollapseSpaces(s[1..])
  {
  }

  /** A leading whitespace run becomes one space. */
  lemma CollapseOfSpace(s: string)
    requires s != [] && IsSpace(s[0])
    ensures CollapseSpaces(s) == [' '] + CollapseSpaces(TrimStart(s))
  {
  }

  /** `hay.includes(needle)`. */
  predicate Includes(hay: string, needle: string)
    ensures Includes(hay, needle) ==> |needle| <= |hay|
    ensures needle == [] ==> Includes(hay, needle)
    decreases |hay|
  {
    needle <= hay || (hay != [] && Includes(hay[1..], needle))
  }

  /** `Includes` holds exactly when `needle` starts at some offset of `hay`. */
  lemma {:induction false} IncludesIsSubstring(hay: string, needle: string)
    ensures Includes(hay, needle) <==> exists k :: 0 <= k <= |hay| && needle <= hay[k..]
    decreases |hay|
  {
    if needle <= hay {
      assert needle <= hay[0..];
    } else if hay == [] {
    } else {
      IncludesIsSubstring(hay[1..], needle);
      if Includes(hay, needle) {
        var k :| 0 <= k <= |hay[1..]| && needle <= hay[1..][k..];
        assert hay[1..][k..] == hay[k + 1..];
      } else {
        forall k | 1 <= k <= |hay|
          ensures !(needle <= hay[k..])
        {
          assert hay[1..][k - 1..] == hay[k..];
        }
        assert !(needle <= hay[0..]);
      }
    }
  }

  /** JavaScript's `a < b` on strings: lexicographic comparison, a proper
      prefix being smaller. */
  predicate Less(a: string, b: string)
    ensures Less(a, b) ==> a != b
    ensures a < b ==> Less(a, b)
    decreases |a|
  {
    if a == [] then b != []
    else if b == [] then false
    else if a[0] != b[0] then a[0] < b[0]
    else Less(a[1..], b[1..])
  }

  lemma {:induction false} LessIrreflexive(a: string)
    ensures !Less(a, a)
    decreases |a|
  {
    if a != [] {
      LessIrreflexive(a[1..]);
    }
  }

  lemma {:induction false} LessTransitive(a: string, b: string, c: string)
    requires Less(a, b) && Less(b, c)
    ensures Less(a, c)
    decreases |a|
  {
    if a != [] && a[0] == b[0] && b[0] == c[0] {
      LessTransitive(a[1..], b[1..], c[1..]);
    }
  }

  /** Any two different strings are ordered one way or the other. */
  lemma {:induction false} LessTotal(a: string, b: string)
    requires a != b
    ensures Less(a, b) || Less(b, a)
    decreases |a|
  {
    if a != [] && b != [] && a[0] == b[0] {
      assert a == [a[0]] + a[1..] && b == [b[0]] + b[1..];
      LessTotal(a[1..], b[1..]);
    }
  }

  /** "Not less than" is transitive, which is what a non-increasing sort needs. */
  lemma NotLessTransitive(a: string, b: string, c: string)
    requires !Less(a, b) && !Less(b, c)
    ensures !Less(a, c)
  {
    if Less(a, c) {
      if a == b {
      } else if b == c {
      } else {
        LessTotal(a, b);
        LessTotal(b, c);
        LessTransitive(c, b, a);
        LessTransitive(a, c, a);
        LessIrreflexive(a);
      }
    }
  }
}

=== FILE: page.dfy ===
/** The pure part of the single-page client: the search filter, the checks
    and payloads of `submit`, and how the local mirror of the list and the
    input state change on remove, toggle, edit and Escape. The network is a
    parameter: each handler is given the outcome of its request. */
module Page {
  import opened Wrappers
  import opened Types
  import opened JsString
  import opened Seqs
  import opened Shared

  /** The component state the handlers read and write: the mirrored list,
      the input text (search query and edit buffer at once), the warning
      line and the id being edited. */
  datatype UiState = UiState(
    todos: seq<Todo>, query: string, warn: Option<string>, editingId: Option<string>)

  /** A request to the API: PUT /api/todo/{id}, POST /api/todo or
      DELETE /api/todo/{id}. */
  datatype Call = Put(id: string, body: Todo) | Post(body: Todo) | Delete(id: string)

  /** What a handler did: the next state, the request it sent (if any), and
      whether it then reloads the list from the server. */
  datatype Outcome = Outcome(state: UiState, call: Option<Call>, reload: bool)

  const EmptyWarning: string := "Todo cannot be empty."
  const DuplicateWarning: string := "Duplicate todo. Please enter a unique one."

  // -------------------------------------------------------------- search

  /** The todo's normalised text contains the normalised query. */
  predicate Matches(t: Todo, q: string) {
    Includes(Normalize(t.todo), q)
  }

  /** The `filtered` memo: everything for a blank query, otherwise the todos
      whose normalised text contains the normalised query, in list order. */
  function Filtered(todos: seq<Todo>, query: string): (r: seq<Todo>)
    ensures Normalize(query) == [] ==> r == todos
    ensures IsSubsequence(r, todos)
    ensures Normalize(query) != [] ==> forall t ::
      multiset(r)[t] == if Matches(t, Normalize(query)) then multiset(todos)[t] else 0
  {
    var q := Normalize(query);
    if q == [] then
      SelfSubsequence(todos);
      todos
    else
      FilterIsSubsequence(todos, (t: Todo) => Matches(t, q));
      Filter(todos, (t: Todo) => Matches(t, q))
  }

  /** For a non-blank query, a todo is shown exactly when its normalised text
      has the normalised query at some offset. */
  lemma FilteredIsSubstringSearch(todos: seq<Todo>, query: string, t: Todo)
    requires Normalize(query) != []
    ensures t in Filtered(todos, query) <==>
      t in todos && exists k :: 0 <= k <= |Normalize(t.todo)| && Normalize(query) <= Normalize(t.todo)[k..]
  {
    var r := Filtered(todos, query);
    IncludesIsSubstring(Normalize(t.todo), Normalize(query));
    assert t in r <==> multiset(r)[t] > 0;
    assert t in todos <==> multiset(todos)[t] > 0;
  }

  /** Typing a todo's own text, in any case or spacing, keeps it in view. */
  lemma OwnTextIsFound(todos: seq<Todo>, t: Todo, query: string)
    requires t in todos
    requires Normalize(query) == Normalize(t.todo)
    ensures t in Filtered(todos, query)
  {
    var q := Normalize(query);
    if q != [] {
      assert q <= Normalize(t.todo);
      assert multiset(todos)[t] > 0;
      assert multiset(Filtered(todos, query))[t] > 0;
    }
  }

  // -------------------------------------------------------------- submit

  /** `if (editingId)`: an empty id is falsy and means "not editing". */
  predicate Editing(s: UiState) {
    s.editingId.Some? && s.editingId.value != ""
  }

  /** What the duplicate check compares against: every todo except those
      with the id being edited. */
  function DupBase(s: UiState): (r: seq<Todo>)
    ensures !Editing(s) ==> r == s.todos
    ensures Editing(s) ==> forall t :: t in r <==> t in s.todos && t.id != s.editingId.value
  {
    if Editing(s) then
      var id := s.editingId.value;
      var r := Filter(s.todos, (t: Todo) => t.id != id);
      assert forall t :: t in r <==> multiset(r)[t] > 0;
      r
    else s.todos
  }

  /** The body of the PUT for an edit: the edited id and the trimmed text,
      keeping the stored record's flag and timestamp, or `false` and `now`
      when the record is not in the mirror. */
  function UpdateBody(s: UiState, text: string, now: string): (b: Todo)
    requires Editing(s)
    ensures b.id == s.editingId.value && b.todo == text
    ensures forall i {:trigger FirstMatch(s.todos, s.editingId.value, i)} ::
      FirstMatch(s.todos, s.editingId.value, i) ==>
        b.isCompleted == s.todos[i].isCompleted && b.createdAt == s.todos[i].createdAt
    ensures Absent(s.todos, s.editingId.value) ==> !b.isCompleted && b.createdAt == now
  {
    var id := s.editingId.value;
    match FindIndex(s.todos, id)
    case Some(i) => Todo(id, text, s.todos[i].isCompleted, s.todos[i].createdAt)
    case None => Todo(id, text, false, now)
  }

  /** `submit`, given a fresh id for a new todo, the current time and the
      outcome of the request it sends. Blank input and duplicates are turned
      away with a warning before any request; a successful save clears the
      input (and the edit) and reloads; a failed one shows the error. */
  function Submit(s: UiState, freshId: string, now: string, response: Result<(), string>): (r: Outcome)
    ensures r.state.todos == s.todos
    ensures Trim(s.query) == [] ==>
      r == Outcome(s.(warn := Some(EmptyWarning)), None, false)
    ensures Trim(s.query) != [] && IsDuplicate(Trim(s.query), DupBase(s)) ==>
      r == Outcome(s.(warn := Some(DuplicateWarning)), None, false)
    ensures r.call.Some? <==> Trim(s.query) != [] && !IsDuplicate(Trim(s.query), DupBase(s))
    ensures r.call.Some? && Editing(s) ==>
      r.call.value == Put(s.editingId.value, UpdateBody(s, Trim(s.query), now))
    ensures r.call.Some? && !Editing(s) ==>
      r.call.value == Post(Todo(freshId, Trim(s.query), false, now))
    ensures r.call.Some? && response.Success? ==>
      && r.reload && r.state.query == [] && r.state.warn == None
      && r.state.editingId == (if Editing(s) then None else s.editingId)
    ensures r.call.Some? && response.Failure? ==>
      !r.reload && r.state == s.(warn := Some(response.error))
  {
    var text := Trim(s.query);
    var cleared := s.(warn := None);
    if text == [] then Outcome(s.(warn := Some(EmptyWarning)), None, false)
    else if IsDuplicate(text, DupBase(s)) then Outcome(s.(warn := Some(DuplicateWarning)), None, false)
    else
      var call := if Editing(s) then Put(s.editingId.value, UpdateBody(s, text, now))
                  else Post(Todo(freshId, text, false, now));
      match response
      case Failure(msg) => Outcome(s.(warn := Some(msg)), Some(call), false)
      case Success(_) =>
        var next := if Editing(s) then cleared.(editingId := None, query := [])
                    else cleared.(query := []);
        Outcome(next, Some(call), true)
  }

  /** Whatever `submit` sends has non-blank, trimmed text that does not
      normalise like any other todo's. */
  lemma SubmitSendsOnlyFreshText(s: UiState, freshId: string, now: string, response: Result<(), string>)
    ensures var r := Submit(s, freshId, now, response);
      r.call.Some? && !r.call.value.Delete? ==>
        var body := r.call.value.body;
        && body.todo == Trim(s.query) && body.todo != []
        && Trim(body.todo) == body.todo
        && Normalize(body.todo) != []
        && forall t :: t in s.todos && (Editing(s) ==> t.id != s.editingId.value) ==>
             Normalize(t.todo) != Normalize(body.todo)
  {
    var text := Trim(s.query);
    if text != [] {
      TrimIdempotent(s.query);
      TrimmedNormalizesNonEmpty(text);
    }
  }

  /** Text with a non-whitespace character does not normalise to nothing. */
  lemma TrimmedNormalizesNonEmpty(text: string)
    requires text != [] && !IsSpace(text[0])
    ensures Normalize(text) != []
  {
    assert TrimStart(text) == text;
    assert Trim(text) != [];
  }

  // ------------------------------------------------------ remove, toggle

  /** `onRemove`: sends the DELETE; on success drops every todo with that id
      from the mirror, keeping the order of the rest; on failure shows the
      error. */
  function OnRemove(s: UiState, id: string, response: Result<(), string>): (r: Outcome)
    ensures r.call == Some(Delete(id)) && !r.reload
    ensures r.state.query == s.query && r.state.editingId == s.editingId
    ensures response.Success? ==>
      && r.state.warn == None
      && IsSubsequence(r.state.todos, s.todos)
      && forall t :: multiset(r.state.todos)[t] == if t.id != id then multiset(s.todos)[t] else 0
    ensures response.Failure? ==> r.state == s.(warn := Some(response.error))
  {
    match response
    case Success(_) =>
      var p := (t: Todo) => t.id != id;
      FilterIsSubsequence(s.todos, p);
      Outcome(s.(warn := None, todos := Filter(s.todos, p)), Some(Delete(id)), false)
    case Failure(msg) => Outcome(s.(warn := Some(msg)), Some(Delete(id)), false)
  }

  /** The record with its completion flag flipped. */
  function Flipped(t: Todo): (u: Todo)
    ensures u.id == t.id && u.todo == t.todo && u.createdAt == t.createdAt
    ensures u.isCompleted != t.isCompleted
  {
    t.(isCompleted := !t.isCompleted)
  }

  /** The mirror update of `onToggle`: every record with the id is flipped,
      every other record is kept, in place. */
  function ToggleMirror(todos: seq<Todo>, id: string): (r: seq<Todo>)
    ensures |r| == |todos|
    ensures forall i :: 0 <= i < |todos| && todos[i].id != id ==> r[i] == todos[i]
    ensures forall i :: 0 <= i < |todos| && todos[i].id == id ==> r[i] == Flipped(todos[i])
  {
    seq(|todos|, i requires 0 <= i < |todos| => if todos[i].id == id then Flipped(todos[i]) else todos[i])
  }

  /** Toggling twice restores the mirror. */
  lemma ToggleTwiceRestores(todos: seq<Todo>, id: string)
    ensures ToggleMirror(ToggleMirror(todos, id), id) == todos
  {
  }

  /** `onToggle`: sends the PUT carrying the record with its flag flipped; on
      success flips the flag of the records with that id in the mirror; on
      failure shows the error. */
  function OnToggle(s: UiState, t: Todo, response: Result<(), string>): (r: Outcome)
    ensures r.call == Some(Put(t.id, Flipped(t))) && !r.reload
    ensures r.state.query == s.query && r.state.editingId == s.editingId
    ensures response.Success? ==>
      r.state.warn == None && r.state.todos == ToggleMirror(s.todos, t.id)
    ensures response.Failure? ==> r.state == s.(warn := Some(response.error))
  {
    var call := Put(t.id, Flipped(t));
    match response
    case Success(_) => Outcome(s.(warn := None, todos := ToggleMirror(s.todos, t.id)), Some(call), false)
    case Failure(msg) => Outcome(s.(warn := Some(msg)), Some(call), false)
  }

  // --------------------------------------------------------- edit, Escape

  /** `onEdit`: starts editing the todo, with its text in the input. */
  function OnEdit(s: UiState, t: Todo): (r: UiState)
    ensures r.editingId == Some(t.id) && r.query == t.todo && r.warn == None
    ensures r.todos == s.todos
  {
    s.(warn := None, editingId := Some(t.id), query := t.todo)
  }

  /** The Escape key: leaves editing and clears the input and the warning. */
  function Escape(s: UiState): (r: UiState)
    ensures r.editingId == None && r.query == [] && r.warn == None
    ensures r.todos == s.todos
  {
    s.(editingId := None, query := [], warn := None)
  }

  /** After Escape nothing is being edited and the whole list is shown. */
  lemma EscapeShowsEverything(s: UiState)
    ensures !Editing(Escape(s))
    ensures Filtered(Escape(s).todos, Escape(s).query) == s.todos
  {
    assert Trim([]) == [];
  }

  /** Escape forgets an edit entirely: editing and escaping is escaping. */
  lemma EditThenEscape(s: UiState, t: Todo)
    ensures Escape(OnEdit(s, t)) == Escape(s)
  {
  }

  /** Saving an edited todo with its own text is not flagged as a duplicate of
      itself: when no todo under another id normalises like it, the edit
      sends a PUT of the same record with its text trimmed. */
  lemma ResaveIsNotDuplicate(s: UiState, i: nat, freshId: string, now: string, response: Result<(), string>)
    requires i < |s.todos| && s.todos[i].id != ""
    requires UniqueIds(s.todos)
    requires Trim(s.todos[i].todo) != []
    requires forall u :: u in s.todos && u.id != s.todos[i].id ==>
      Normalize(u.todo) != Normalize(s.todos[i].todo)
    ensures var t := s.todos[i];
      Submit(OnEdit(s, t), freshId, now, response).call ==
        Some(Put(t.id, t.(todo := Trim(t.todo))))
  {
    var t := s.todos[i];
    var e := OnEdit(s, t);
    NormalizeTrim(t.todo);
    assert !IsDuplicate(Trim(t.todo), DupBase(e));
    assert FirstMatch(s.todos, t.id, i);
  }
}

=== FILE: repo_switch.dfy ===
/** Choosing the backend for a request and reading a repository module's
    exports as the four-operation repository interface. A module is modelled
    as its export table; functions are told apart by the name they were
    declared under. */
module RepoSwitch {
  import opened Wrappers
  import opened Types
  import opened JsString

  // ------------------------------------------------------- mode resolution

  datatype TodoMode = Dummy | Live

  /** The names, compared after lower-casing, that select the live backend. */
  predicate NamesLive(s: string) {
    Lower(s) == "live" || Lower(s) == "supabase"
  }

  /** `resolveTodoMode`: a requested value, when there is one, decides;
      otherwise TODO_MODE_DEFAULT, then NEXT_PUBLIC_TODO_MODE_DEFAULT, then
      "dummy". Only "live" and "supabase", in any case, give the live mode. */
  function ResolveTodoMode(requested: Option<string>, env: Env): (r: TodoMode)
    ensures requested.Some? ==> (r == Live <==> NamesLive(requested.value))
    ensures requested.None? && env.todoModeDefault.Some? ==>
      (r == Live <==> NamesLive(env.todoModeDefault.value))
    ensures requested.None? && env.todoModeDefault.None? && env.nextPublicTodoModeDefault.Some? ==>
      (r == Live <==> NamesLive(env.nextPublicTodoModeDefault.value))
    ensures requested.None? && env.todoModeDefault.None? && env.nextPublicTodoModeDefault.None? ==>
      r == Dummy
  {
    var envDefault := Lower(env.todoModeDefault.GetOr(env.nextPublicTodoModeDefault.GetOr("dummy")));
    var raw := Lower(requested.GetOr(envDefault));
    LowerIdempotent(env.todoModeDefault.GetOr(env.nextPublicTodoModeDefault.GetOr("dummy")));
    if raw == "live" || raw == "supabase" then Live else Dummy
  }

  /** Matching ignores letter case. */
  lemma ResolveIgnoresCase(s: string, env: Env)
    ensures ResolveTodoMode(Some(s), env) == ResolveTodoMode(Some(Lower(s)), env)
  {
    LowerIdempotent(s);
  }

  /** A requested value wins even when it is empty: "" gives the dummy mode
      whatever the environment says. */
  lemma EmptyRequestIsDummy(env: Env)
    ensures ResolveTodoMode(Some(""), env) == Dummy
  {
  }

  /** What a request carries for mode selection: the `x-todo-mode` header and
      the `mode` query parameter, `None` when absent. */
  datatype Request = Request(modeHeader: Option<string>, modeParam: Option<string>)

  /** `modeFromRequest`: the header, when present, takes precedence over the
      query parameter. */
  function ModeFromRequest(req: Request, env: Env): (r: TodoMode)
    ensures req.modeHeader.Some? ==> r == ResolveTodoMode(req.modeHeader, env)
    ensures req.modeHeader.None? ==> r == ResolveTodoMode(req.modeParam, env)
  {
    ResolveTodoMode(if req.modeHeader.Some? then req.modeHeader else req.modeParam, env)
  }

  /** A header that is present, even an empty one, hides the query parameter. */
  lemma HeaderHidesParam(h: string, p1: Option<string>, p2: Option<string>, env: Env)
    ensures ModeFromRequest(Request(Some(h), p1), env) == ModeFromRequest(Request(Some(h), p2), env)
  {
  }

  // --------------------------------------------------- module normalisation

  /** An exported value, as far as the shape check can tell them apart. */
  datatype Value =
    | Null
    | Object(fields: map<string, Value>)
    | Function(name: string)
    | Primitive

  type Module = map<string, Value>

  /** The four-operation interface; `None` is a slot left `undefined`. */
  datatype RepoApi = RepoApi(
    listTodos: Option<Value>, createTodo: Option<Value>,
    updateTodo: Option<Value>, deleteTodo: Option<Value>)

  datatype ShapeError = ShapeNotRecognized(exportedKeys: set<string>)

  function Get(m: Module, k: string): Option<Value> {
    if k in m then Some(m[k]) else None
  }

  /** A `default` export that is a non-null object. */
  predicate HasObjectDefault(m: Module) {
    "default" in m && m["default"].Object?
  }

  predicate AnyPrefixed(m: Module) {
    "dList" in m || "dCreate" in m || "dUpdate" in m || "dDelete" in m
  }

  predicate AllFullNames(m: Module) {
    "listTodos" in m && "createTodo" in m && "updateTodo" in m && "deleteTodo" in m
  }

  predicate AnyShortName(m: Module) {
    "list" in m || "create" in m || "update" in m || "delete" in m
  }

  /** The module reached by following `default` objects as far as they go. */
  function Innermost(m: Module): (inner: Module)
    ensures !HasObjectDefault(inner)
    decreases Object(m)
  {
    if HasObjectDefault(m) then
      assert m["default"] in m.Values;
      Innermost(m["default"].fields)
    else m
  }

  /** `normalizeRepo`: unwraps `default` objects, then tries the
      d-prefixed names (any one suffices), the full names (all four needed)
      and the short names (any one suffices), in that order; fails on
      anything else. */
  function NormalizeRepo(m: Module): (r: Result<RepoApi, ShapeError>)
    ensures var inner := Innermost(m);
      r.Success? <==> (AnyPrefixed(inner) || AllFullNames(inner) || AnyShortName(inner))
    ensures var inner := Innermost(m);
      AnyPrefixed(inner) ==>
        r == Success(RepoApi(Get(inner, "dList"), Get(inner, "dCreate"),
                             Get(inner, "dUpdate"), Get(inner, "dDelete")))
    ensures var inner := Innermost(m);
      !AnyPrefixed(inner) && AllFullNames(inner) ==>
        r == Success(RepoApi(Some(inner["listTodos"]), Some(inner["createTodo"]),
                             Some(inner["updateTodo"]), Some(inner["deleteTodo"])))
    ensures var inner := Innermost(m);
      !AnyPrefixed(inner) && !AllFullNames(inner) && AnyShortName(inner) ==>
        r == Success(RepoApi(Get(inner, "list"), Get(inner, "create"),
                             Get(inner, "update"), Get(inner, "delete")))
    ensures r.Failure? ==> r.error == ShapeNotRecognized(Innermost(m).Keys)
    decreases Object(m)
  {
    if HasObjectDefault(m) then
      assert m["default"] in m.Values;
      NormalizeRepo(m["default"].fields)
    else if AnyPrefixed(m) then
      Success(RepoApi(Get(m, "dList"), Get(m, "dCreate"), Get(m, "dUpdate"), Get(m, "dDelete")))
    else if AllFullNames(m) then
      Success(RepoApi(Some(m["listTodos"]), Some(m["createTodo"]),
                      Some(m["updateTodo"]), Some(m["deleteTodo"])))
    else if AnyShortName(m) then
      Success(RepoApi(Get(m, "list"), Get(m, "create"), Get(m, "update"), Get(m, "delete")))
    else
      Failure(ShapeNotRecognized(m.Keys))
  }

  /** A `default` object export is looked through, whatever else the outer
      module exports. */
  lemma DefaultIsUnwrapped(outer: Module, inner: Module)
    ensures NormalizeRepo(outer["default" := Object(inner)]) == NormalizeRepo(inner)
  {
    var m := outer["default" := Object(inner)];
    assert m["default"] == Object(inner);
  }

  /** A `default` that is `null`, a function or a primitive is not unwrapped:
      the outer module's own names decide, and only the list of exported
      keys in a failure still shows it. */
  lemma NonObjectDefaultIsKept(m: Module, d: Value)
    requires !d.Object?
    ensures NormalizeRepo(m["default" := d]).Success? == NormalizeRepo(m - {"default"}).Success?
    ensures NormalizeRepo(m["default" := d]).Success? ==>
      NormalizeRepo(m["default" := d]) == NormalizeRepo(m - {"default"})
  {
    var m1 := m["default" := d];
    var m2 := m - {"default"};
    assert !HasObjectDefault(m1) && !HasObjectDefault(m2);
    assert AnyPrefixed(m1) == AnyPrefixed(m2);
    assert AllFullNames(m1) == AllFullNames(m2);
    assert AnyShortName(m1) == AnyShortName(m2);
    assert forall k :: k != "default" ==> Get(m1, k) == Get(m2, k);
  }

  /** One d-prefixed name is enough, and it beats a complete set of full
      names; the d-prefixed names it lacks stay `undefined`. */
  lemma OnePrefixedNameWins(f: Value, g: Value)
    ensures var m := map["dList" := f, "listTodos" := g, "createTodo" := g,
                         "updateTodo" := g, "deleteTodo" := g];
      NormalizeRepo(m) == Success(RepoApi(Some(f), None, None, None))
  {
  }

  /** Three of the four full names are not a shape. */
  lemma ThreeFullNamesFail(f: Value)
    ensures var m := map["listTodos" := f, "createTodo" := f, "updateTodo" := f];
      NormalizeRepo(m) == Failure(ShapeNotRecognized({"listTodos", "createTodo", "updateTodo"}))
  {
    var m := map["listTodos" := f, "createTodo" := f, "updateTodo" := f];
    assert m.Keys == {"listTodos", "createTodo", "updateTodo"};
  }

  // --------------------------------------------------------- repository

  /** The four operations bound to the functions with the given names. */
  function Bound(list: string, create: string, update: string, delete: string): RepoApi {
    RepoApi(Some(Function(list)), Some(Function(create)), Some(Function(update)), Some(Function(delete)))
  }

  const DummyApi: RepoApi :=
    Bound("dummy-repo.dList", "dummy-repo.dCreate", "dummy-repo.dUpdate", "dummy-repo.dDelete")

  const SupabaseApi: RepoApi :=
    Bound("supabase-repo.listTodos", "supabase-repo.createTodo",
          "supabase-repo.updateTodo", "supabase-repo.deleteTodo")

  /** The exports of `dummy-repo`: the d-prefixed functions, the same
      functions under the full names, and a default object holding the full
      names. */
  const DummyRepoModule: Module :=
    var full := map[
      "listTodos" := DummyApi.listTodos.value, "createTodo" := DummyApi.createTodo.value,
      "updateTodo" := DummyApi.updateTodo.value, "deleteTodo" := DummyApi.deleteTodo.value];
    full + map[
      "dList" := DummyApi.listTodos.value, "dCreate" := DummyApi.createTodo.value,
      "dUpdate" := DummyApi.updateTodo.value, "dDelete" := DummyApi.deleteTodo.value,
      "default" := Object(full)]

  /** The exports of `supabase-repo`: the full names and a default object
      holding them. */
  const SupabaseRepoModule: Module :=
    var full := map[
      "listTodos" := SupabaseApi.listTodos.value, "createTodo" := SupabaseApi.createTodo.value,
      "updateTodo" := SupabaseApi.updateTodo.value, "deleteTodo" := SupabaseApi.deleteTodo.value];
    full["default" := Object(full)]

  /** `getRepo`: loads `supabase-repo` for the live mode and `dummy-repo`
      otherwise, and normalises what it loaded. Both modules are recognised,
      each through its default object, and every slot is bound to that
      module's own function. */
  function GetRepo(mode: TodoMode): (r: Result<RepoApi, ShapeError>)
    ensures mode == Live ==> r == Success(SupabaseApi)
    ensures mode == Dummy ==> r == Success(DummyApi)
  {
    if mode == Live then
      SupabaseModuleIsRecognised();
      NormalizeRepo(SupabaseRepoModule)
    else
      DummyModuleIsRecognised();
      NormalizeRepo(DummyRepoModule)
  }

  /** `supabase-repo` is read through its default object's full names. */
  lemma SupabaseModuleIsRecognised()
    ensures NormalizeRepo(SupabaseRepoModule) == Success(SupabaseApi)
  {
    var m := SupabaseRepoModule;
    assert HasObjectDefault(m);
    var inner := m["default"].fields;
    assert !HasObjectDefault(inner) && !AnyPrefixed(inner) && AllFullNames(inner);
  }

  /** `dummy-repo` is read through its default object's full names too: the
      default object carries no d-prefixed names. */
  lemma DummyModuleIsRecognised()
    ensures NormalizeRepo(DummyRepoModule) == Success(DummyApi)
  {
    var m := DummyRepoModule;
    assert HasObjectDefault(m);
    var inner := m["default"].fields;
    assert !HasObjectDefault(inner) && !AnyPrefixed(inner) && AllFullNames(inner);
  }

  /** The repository a request is served by: a header naming the live
      backend in any letter case ("SUPABASE", say) gets the Supabase
      repository whatever the query parameter and the environment say, any
      other header the in-memory one; a request with neither header nor
      parameter, under an environment with no default, gets the in-memory
      one. */
  lemma RequestSelectsRepo(h: string, param: Option<string>, env: Env)
    ensures GetRepo(ModeFromRequest(Request(Some(h), param), env)) ==
      Success(if NamesLive(h) then SupabaseApi else DummyApi)
    ensures env.todoModeDefault.None? && env.nextPublicTodoModeDefault.None? ==>
      GetRepo(ModeFromRequest(Request(None, None), env)) == Success(DummyApi)
  {
  }
}

=== FILE: scenarios.dfy ===
/** The client and the in-memory repository together: what the requests the
    page sends do to the store, and how the page's local mirror compares with
    the store afterwards. The route handlers in between trim `todo` and pass
    on the whole body (POST) or only `todo` and `isCompleted` (PUT); that
    forwarding is written out here. `submit` sends trimmed text, so its
    bodies reach the repository unchanged. `onToggle` sends the mirror's
    text as it is, so the mirror matches the store only for a record whose
    text is already trimmed, which every record of a store filled through
    the routes is (`RoutesKeepTextsTrimmed`). The mirror lemmas apply a
    request to the page's own list: they speak of a store that holds the
    page's list, as the store does while its insertion order is newest
    first, since the page holds `dList`'s sorted copy. */
module Scenarios {
  import opened Wrappers
  import opened Types
  import opened JsString
  import opened Seqs
  import opened Shared
  import opened Page
  import Repo = DummyRepo

  /** No two todos have the same normalised text: the invariant the client's
      duplicate check exists to keep. */
  predicate DistinctTexts(todos: seq<Todo>) {
    forall i, j :: 0 <= i < j < |todos| ==> Normalize(todos[i].todo) != Normalize(todos[j].todo)
  }

  /** The create input POST /api/todo hands to the repository: every field
      of the body, with the text trimmed. A text that is already trimmed
      passes unchanged. */
  function CreateInputOf(body: Todo): (r: Repo.CreateInput)
    ensures Trim(r.todo) == r.todo
    ensures Trim(body.todo) == body.todo ==> r.todo == body.todo
    ensures r.id == Some(body.id) && r.createdAt == Some(body.createdAt)
    ensures r.isCompleted == Some(body.isCompleted)
  {
    TrimIdempotent(body.todo);
    Repo.CreateInput(Some(body.id), Trim(body.todo), Some(body.isCompleted), Some(body.createdAt))
  }

  /** The patch PUT /api/todo/{id} hands to the repository: the trimmed text
      and the flag, never an id or a creation time. A text that is already
      trimmed passes unchanged. */
  function PatchOf(body: Todo): (r: Repo.Patch)
    ensures r.todo.Some? && Trim(r.todo.value) == r.todo.value
    ensures Trim(body.todo) == body.todo ==> r.todo == Some(body.todo)
    ensures r.id.None? && r.createdAt.None?
    ensures r.isCompleted == Some(body.isCompleted)
  {
    TrimIdempotent(body.todo);
    Repo.Patch(None, Some(Trim(body.todo)), Some(body.isCompleted), None)
  }

  /** A record whose text is its own trim. */
  predicate TextTrimmed(t: Todo) {
    Trim(t.todo) == t.todo
  }

  /** A store filled only through the routes keeps every text trimmed: POST
      and PUT trim the text they pass on, and DELETE only removes. */
  lemma RoutesKeepTextsTrimmed(store: Repo.Store, body: Todo, id: string, freshId: string, now: string)
    requires All(store, TextTrimmed)
    ensures All(Repo.Create(store, CreateInputOf(body), freshId, now).store, TextTrimmed)
    ensures All(Repo.Update(store, id, PatchOf(body)).store, TextTrimmed)
    ensures All(Repo.Delete(store, id).store, TextTrimmed)
  {
    PostKeepsTrimmed(store, body, freshId, now);
    PutKeepsTrimmed(store, body, id);
    DeleteKeepsTrimmed(store, id);
  }

  lemma PostKeepsTrimmed(store: Repo.Store, body: Todo, freshId: string, now: string)
    requires All(store, TextTrimmed)
    ensures All(Repo.Create(store, CreateInputOf(body), freshId, now).store, TextTrimmed)
  {
    TrimIdempotent(body.todo);
    var row := Repo.Create(store, CreateInputOf(body), freshId, now).out.value;
    assert TextTrimmed(row);
    PrependKeepsAll(row, store, TextTrimmed);
  }

  lemma PutKeepsTrimmed(store: Repo.Store, body: Todo, id: string)
    requires All(store, TextTrimmed)
    ensures All(Repo.Update(store, id, PatchOf(body)).store, TextTrimmed)
  {
    match FindIndex(store, id)
    case None =>
    case Some(k) =>
      var merged := Repo.Merge(store[k], PatchOf(body));
      assert TextTrimmed(merged) by {
        TrimIdempotent(body.todo);
      }
      ReplaceKeepsAll(store, k, merged, TextTrimmed);
      assert FirstMatch(store, id, k);
  }

  lemma DeleteKeepsTrimmed(store: Repo.Store, id: string)
    requires All(store, TextTrimmed)
    ensures All(Repo.Delete(store, id).store, TextTrimmed)
  {
    match FindIndex(store, id)
    case None =>
    case Some(k) =>
      RemoveKeepsAll(store, k, TextTrimmed);
  }

  /** No two elements share a key. */
  predicate DistinctKeys<T>(xs: seq<T>, key: T -> string) {
    forall i, j :: 0 <= i < j < |xs| ==> key(xs[i]) != key(xs[j])
  }

  lemma PrependKeepsDistinctKeys<T>(x: T, xs: seq<T>, key: T -> string)
    requires DistinctKeys(xs, key)
    requires forall i :: 0 <= i < |xs| ==> key(xs[i]) != key(x)
    ensures DistinctKeys([x] + xs, key)
  {
    var ys := [x] + xs;
    forall i, j | 0 <= i < j < |ys|
      ensures key(ys[i]) != key(ys[j])
    {
      assert ys[j] == xs[j - 1];
      if i > 0 {
        assert ys[i] == xs[i - 1];
      }
    }
  }

  lemma PrependKeepsDistinct(row: Todo, todos: seq<Todo>)
    requires DistinctTexts(todos)
    requires forall t :: t in todos ==> Normalize(t.todo) != Normalize(row.todo)
    ensures DistinctTexts([row] + todos)
  {
    var key := (t: Todo) => Normalize(t.todo);
    assert DistinctKeys(todos, key);
    forall i | 0 <= i < |todos|
      ensures key(todos[i]) != key(row)
    {
      assert todos[i] in todos;
    }
    PrependKeepsDistinctKeys(row, todos, key);
    assert DistinctKeys([row] + todos, key);
  }

  lemma ReplaceKeepsDistinct(todos: seq<Todo>, k: nat, row: Todo)
    requires k < |todos| && DistinctTexts(todos)
    requires forall j :: 0 <= j < |todos| && j != k ==> Normalize(todos[j].todo) != Normalize(row.todo)
    ensures DistinctTexts(todos[k := row])
  {
  }

  /** A todo created through the page keeps the texts of a store that mirrors
      the page's list distinct. */
  lemma SubmitCreateKeepsTextsDistinct(
    s: UiState, freshId: string, now: string, response: Result<(), string>,
    serverId: string, serverNow: string)
    requires DistinctTexts(s.todos)
    requires var c := Submit(s, freshId, now, response).call; c.Some? && c.value.Post?
    ensures var body := Submit(s, freshId, now, response).call.value.body;
      DistinctTexts(Repo.Create(s.todos, CreateInputOf(body), serverId, serverNow).store)
  {
    var body := Submit(s, freshId, now, response).call.value.body;
    SubmitSendsOnlyFreshText(s, freshId, now, response);
    assert !Editing(s);
    assert Repo.Create(s.todos, CreateInputOf(body), serverId, serverNow).store == [body] + s.todos;
    PrependKeepsDistinct(body, s.todos);
  }

  /** An edit saved through the page keeps the texts distinct too, provided
      ids are unique: the duplicate check skips only the edited record. */
  lemma SubmitEditKeepsTextsDistinct(
    s: UiState, freshId: string, now: string, response: Result<(), string>)
    requires UniqueIds(s.todos) && DistinctTexts(s.todos)
    requires var c := Submit(s, freshId, now, response).call; c.Some? && c.value.Put?
    ensures var c := Submit(s, freshId, now, response).call.value;
      DistinctTexts(Repo.Update(s.todos, c.id, PatchOf(c.body)).store)
  {
    var c := Submit(s, freshId, now, response).call.value;
    SubmitSendsOnlyFreshText(s, freshId, now, response);
    assert Editing(s) && c.id == s.editingId.value;
    UpdateKeepsDistinct(s.todos, c.id, c.body);
  }

  /** Writing a text that no record with another id has keeps texts distinct,
      when ids are unique. */
  lemma UpdateKeepsDistinct(todos: seq<Todo>, id: string, body: Todo)
    requires UniqueIds(todos) && DistinctTexts(todos)
    requires forall t :: t in todos && t.id != id ==> Normalize(t.todo) != Normalize(body.todo)
    ensures DistinctTexts(Repo.Update(todos, id, PatchOf(body)).store)
  {
    match FindIndex(todos, id)
    case None =>
    case Some(k) =>
      var row := Repo.Merge(todos[k], PatchOf(body));
      assert row.todo == Trim(body.todo);
      NormalizeTrim(body.todo);
      forall j | 0 <= j < |todos| && j != k
        ensures Normalize(todos[j].todo) != Normalize(row.todo)
      {
        assert todos[j] in todos && todos[j].id != id;
      }
      ReplaceKeepsDistinct(todos, k, row);
  }

  /** With unique ids, when the store holds the page's list, the mirror after
      a successful toggle of a record whose text is trimmed is exactly the
      store after the PUT the toggle sent. */
  lemma ToggleMirrorsServer(s: UiState, t: Todo)
    requires UniqueIds(s.todos) && t in s.todos
    requires Trim(t.todo) == t.todo
    ensures var r := OnToggle(s, t, Success(()));
      r.state.todos == Repo.Update(s.todos, t.id, PatchOf(r.call.value.body)).store
  {
    var k :| 0 <= k < |s.todos| && s.todos[k] == t;
    assert FirstMatch(s.todos, t.id, k);
    FlipThroughRoute(t);
    assert Repo.Update(s.todos, t.id, PatchOf(Flipped(t))).store == s.todos[k := Flipped(t)];
    ToggleOfUniqueId(s.todos, k);
  }

  /** With unique ids, the mirror update of `onToggle` flips just one record. */
  lemma ToggleOfUniqueId(todos: seq<Todo>, k: nat)
    requires UniqueIds(todos) && k < |todos|
    ensures ToggleMirror(todos, todos[k].id) == todos[k := Flipped(todos[k])]
  {
  }

  /** The PUT of a flipped record with trimmed text stores exactly that
      flipped record. */
  lemma FlipThroughRoute(t: Todo)
    requires Trim(t.todo) == t.todo
    ensures Repo.Merge(t, PatchOf(Flipped(t))) == Flipped(t)
  {
  }

  /** With unique ids, when the store holds the page's list, the mirror after
      a successful remove is exactly the store after the DELETE. */
  lemma RemoveMirrorsServer(s: UiState, id: string)
    requires UniqueIds(s.todos)
    ensures OnRemove(s, id, Success(())).state.todos == Repo.Delete(s.todos, id).store
  {
    DeleteIsFilter(s.todos, id);
  }

  /** With unique ids, `dDelete` removes every record with the id. */
  lemma DeleteIsFilter(todos: seq<Todo>, id: string)
    requires UniqueIds(todos)
    ensures Repo.Delete(todos, id).store == Filter(todos, (t: Todo) => t.id != id)
  {
    var p := (t: Todo) => t.id != id;
    match FindIndex(todos, id)
    case None =>
      FilterKeepsAll(todos, p);
    case Some(k) =>
      var a, x, b := todos[..k], todos[k], todos[k + 1..];
      assert todos == a + [x] + b;
      forall i | 0 <= i < |a|
        ensures p(a[i])
      {
        assert a[i] == todos[i];
      }
      forall i | 0 <= i < |b|
        ensures p(b[i])
      {
        assert b[i] == todos[k + 1 + i];
      }
      FilterDropsOne(a, x, b, p);
  }

  /** Without unique ids, which the repository permits, the two part ways:
      the mirror drops every record with the id, the store only the first. */
  lemma RemoveWithDuplicateIdsDiverges()
    ensures var a := Todo("x", "first", false, "2024-01-01T00:00:00.000Z");
      var b := Todo("x", "second", false, "2024-01-02T00:00:00.000Z");
      var s := UiState([a, b], [], None, None);
      OnRemove(s, "x", Success(())).state.todos == [] &&
      Repo.Delete(s.todos, "x").store == [b]
  {
    var a := Todo("x", "first", false, "2024-01-01T00:00:00.000Z");
    var b := Todo("x", "second", false, "2024-01-02T00:00:00.000Z");
    assert FirstMatch([a, b], "x", 0);
    assert multiset(OnRemove(UiState([a, b], [], None, None), "x", Success(())).state.todos) == multiset{};
  }

  /** Create a record, then mark it completed through the routes: the next
      list shows it completed, with its id and creation time as sent and its
      text trimmed. */
  lemma CreateThenComplete(store: Repo.Store, x: Todo, serverId: string, serverNow: string)
    ensures var s1 := Repo.Create(store, CreateInputOf(x), serverId, serverNow).store;
      var s2 := Repo.Update(s1, x.id, PatchOf(x.(isCompleted := true))).store;
      x.(todo := Trim(x.todo), isCompleted := true) in Repo.List(s2).out.value
  {
    var s1 := Repo.Create(store, CreateInputOf(x), serverId, serverNow).store;
    assert FirstMatch(s1, x.id, 0);
    var s2 := Repo.Update(s1, x.id, PatchOf(x.(isCompleted := true))).store;
    TrimIdempotent(x.todo);
    assert s2[0] == x.(todo := Trim(x.todo), isCompleted := true);
    assert s2[0] in multiset(s2);
  }

  /** "Buy milk" is stored; typing "buy MILK" is turned away as a duplicate
      before any request, so the store still lists only the first record. */
  lemma BuyMilkIsRejected(response: Result<(), string>)
    ensures var a := Todo("a", "Buy milk", false, "2024-01-01T00:00:00.000Z");
      var s := UiState([a], "buy MILK", None, None);
      var r := Submit(s, "b", "2024-01-02T00:00:00.000Z", response);
      r.call == None && r.state.warn == Some(DuplicateWarning) &&
      Repo.List([a]).out.value == [a]
  {
    var a := Todo("a", "Buy milk", false, "2024-01-01T00:00:00.000Z");
    var s := UiState([a], "buy MILK", None, None);
    BuyMilkIsDuplicate(a);
    BuyMilkIsTrimmed();
    assert DupBase(s) == [a];
    TurnedAway(s, "b", "2024-01-02T00:00:00.000Z", response);
    ListOfOne(a);
  }

  lemma BuyMilkIsDuplicate(a: Todo)
    requires a.todo == "Buy milk"
    ensures IsDuplicate("buy MILK", [a])
  {
    var n := "buy milk";
    assert Normalize(a.todo) == n by {
      BuyMilkNormal("Buy milk");
    }
    assert Normalize("buy MILK") == n by {
      BuyMilkNormal("buy MILK");
    }
    assert n != [];
    assert a in [a];
  }

  lemma BuyMilkIsTrimmed()
    ensures Trim("buy MILK") == "buy MILK"
  {
    var q := "buy MILK";
    assert !IsSpace(q[0]) && !IsSpace(q[|q| - 1]);
    TrimOfUnpadded(q);
  }

  lemma BuyMilkNormal(s: string)
    requires s == "Buy milk" || s == "buy MILK"
    ensures Normalize(s) == "buy milk"
  {
    LowersToBuyMilk(s);
    BuyMilkIsCanonical();
    NormalizesTo(s, "buy milk");
  }

  /** A duplicate is turned away with the warning and no request. */
  lemma TurnedAway(s: UiState, freshId: string, now: string, response: Result<(), string>)
    requires Trim(s.query) == s.query && s.query != []
    requires IsDuplicate(s.query, DupBase(s))
    ensures var r := Submit(s, freshId, now, response);
      r.call == None && r.state.warn == Some(DuplicateWarning)
  {
  }

  /** Listing a single record gives it back. */
  lemma ListOfOne(a: Todo)
    ensures Repo.List([a]).out.value == [a]
  {
    var l := Repo.List([a]).out.value;
    assert multiset(l) == multiset{a};
    assert |l| == 1 && l[0] in multiset(l);
  }

  lemma LowersToBuyMilk(s: string)
    requires s == "Buy milk" || s == "buy MILK"
    ensures |s| == 8 && forall i :: 0 <= i < |s| ==> "buy milk"[i] == LowerChar(s[i])
  {
    assert LowerChar('B') == 'b' && LowerChar('M') == 'm';
    assert LowerChar('I') == 'i' && LowerChar('L') == 'l' && LowerChar('K') == 'k';
  }

  lemma BuyMilkIsCanonical()
    ensures Canonical("buy milk")
  {
    var n := "buy milk";
    assert forall i :: 0 <= i < |n| && i != 3 ==> !IsSpace(n[i]);
  }

  /** Normalisation of a string given its lower-cased form, when that is
      already canonical. */
  lemma NormalizesTo(s: string, n: string)
    requires |s| == |n|
    requires forall i :: 0 <= i < |s| ==> n[i] == LowerChar(s[i])
    requires Canonical(n)
    ensures Normalize(s) == n
  {
    assert s == [] || (!IsSpace(s[0]) && !IsSpace(s[|s| - 1])) by {
      if s != [] {
        assert IsSpace(n[0]) == IsSpace(s[0]);
        assert IsSpace(n[|n| - 1]) == IsSpace(s[|s| - 1]);
      }
    }
    TrimOfUnpadded(s);
    assert Lower(s) == n;
    CollapseFixesSingleSpaced(n);
  }
}

=== FILE: seqs.dfy ===
/** Order-preserving selection from a sequence, as JavaScript's
    `Array.prototype.filter` does it. */
module Seqs {

  /** `a` is what remains of `b` after deleting some of its elements; the
      survivors keep their relative order. */
  predicate IsSubsequence<T(==)>(a: seq<T>, b: seq<T>)
    decreases |b|
  {
    if a == [] then true
    else if b == [] then false
    else if a[0] == b[0] then IsSubsequence(a[1..], b[1..])
    else IsSubsequence(a, b[1..])
  }

  lemma {:induction false} SelfSubsequence<T>(s: seq<T>)
    ensures IsSubsequence(s, s)
  {
    if s != [] {
      SelfSubsequence(s[1..]);
    }
  }

  lemma {:induction false} SubsequenceOfTail<T>(a: seq<T>, x: T, b: seq<T>)
    requires IsSubsequence(a, b)
    ensures IsSubsequence(a, [x] + b)
    decreases |a| + |b| + 1
  {
    if a != [] {
      assert ([x] + b)[1..] == b;
      if a[0] == x {
        SubsequenceDropHead(a, b);
      }
    }
  }

  lemma {:induction false} SubsequenceDropHead<T>(a: seq<T>, b: seq<T>)
    requires a != [] && IsSubsequence(a, b)
    ensures IsSubsequence(a[1..], b)
    decreases |a| + |b|
  {
    if a[1..] != [] {
      if a[0] == b[0] {
        SubsequenceOfTail(a[1..], b[0], b[1..]);
        assert [b[0]] + b[1..] == b;
      } else {
        SubsequenceDropHead(a, b[1..]);
        SubsequenceOfTail(a[1..], b[0], b[1..]);
        assert [b[0]] + b[1..] == b;
      }
    }
  }

  /** Leaving out one element gives a subsequence. */
  lemma {:induction false} PrefixSkipSubsequence<T>(a: seq<T>, x: T, b: seq<T>)
    ensures IsSubsequence(a + b, a + [x] + b)
    decreases |a|
  {
    SplitAround(a, x, b);
    if a == [] {
      SelfSubsequence(b);
      SubsequenceOfTail(b, x, b);
      assert ([x] + b)[1..] == b;
    } else {
      PrefixSkipSubsequence(a[1..], x, b);
      ConsConcat(a, b);
      assert ([a[0]] + (a[1..] + b))[1..] == a[1..] + b;
      SubsequenceCons(a + b, a + [x] + b);
    }
  }

  lemma SubsequenceCons<T>(a: seq<T>, b: seq<T>)
    requires a != [] && b != [] && a[0] == b[0]
    requires IsSubsequence(a[1..], b[1..])
    ensures IsSubsequence(a, b)
  {
  }

  /** `xs.filter(p)`: the elements satisfying `p`, each as often as it
      occurs in `xs`; `FilterIsSubsequence` adds that they keep their order. */
  function Filter<T(==,!new)>(xs: seq<T>, p: T -> bool): (r: seq<T>)
    ensures forall i :: 0 <= i < |r| ==> p(r[i])
    ensures forall x :: multiset(r)[x] == if p(x) then multiset(xs)[x] else 0
  {
    if xs == [] then []
    else
      var rest := Filter(xs[1..], p);
      assert xs == [xs[0]] + xs[1..];
      if p(xs[0]) then
        assert ([xs[0]] + rest)[1..] == rest;
        [xs[0]] + rest
      else
        rest
  }

  lemma {:induction false} FilterIsSubsequence<T(!new)>(xs: seq<T>, p: T -> bool)
    ensures IsSubsequence(Filter(xs, p), xs)
    decreases |xs|
  {
    if xs != [] {
      var rest := Filter(xs[1..], p);
      FilterIsSubsequence(xs[1..], p);
      if p(xs[0]) {
        assert Filter(xs, p) == [xs[0]] + rest;
        assert ([xs[0]] + rest)[1..] == rest;
      } else {
        assert Filter(xs, p) == rest;
        SubsequenceOfTail(rest, xs[0], xs[1..]);
        assert [xs[0]] + xs[1..] == xs;
      }
    }
  }

  /** Filtering with a test every element passes keeps everything. */
  lemma {:induction false} FilterKeepsAll<T(!new)>(xs: seq<T>, p: T -> bool)
    requires forall i :: 0 <= i < |xs| ==> p(xs[i])
    ensures Filter(xs, p) == xs
    decreases |xs|
  {
    if xs != [] {
      FilterKeepsAll(xs[1..], p);
    }
  }

  /** One step of `Filter`. */
  lemma FilterCons<T(!new)>(xs: seq<T>, p: T -> bool)
    requires xs != []
    ensures Filter(xs, p) == (if p(xs[0]) then [xs[0]] else []) + Filter(xs[1..], p)
  {
  }

  /** Filtering out the one element that fails the test removes just it. */
  lemma {:induction false} FilterDropsOne<T(!new)>(a: seq<T>, x: T, b: seq<T>, p: T -> bool)
    requires forall i :: 0 <= i < |a| ==> p(a[i])
    requires !p(x)
    requires forall i :: 0 <= i < |b| ==> p(b[i])
    ensures Filter(a + [x] + b, p) == a + b
    decreases |a|
  {
    var xs := a + [x] + b;
    if a == [] {
      assert Filter(xs, p) == a + b by {
        FilterCons(xs, p);
        SplitAround(a, x, b);
        FilterKeepsAll(b, p);
      }
    } else {
      assert Filter(a[1..] + [x] + b, p) == a[1..] + b by {
        FilterDropsOne(a[1..], x, b, p);
      }
      assert Filter(xs, p) == a + b by {
        FilterCons(xs, p);
        SplitAround(a, x, b);
        assert p(a[0]);
        ConsConcat(a, b);
      }
    }
  }

  /** Removing the element at one index leaves a subsequence one shorter,
      with that element's count down by one. */
  lemma RemoveAt<T>(s: seq<T>, i: nat)
    requires i < |s|
    ensures var r := s[..i] + s[i + 1..];
      |r| == |s| - 1 && IsSubsequence(r, s) && multiset(r) + multiset{s[i]} == multiset(s)
  {
    var a, x, b := s[..i], s[i], s[i + 1..];
    assert s == a + [x] + b;
    assert multiset(a + b) + multiset{x} == multiset(s) by {
      assert multiset(s) == multiset(a) + multiset{x} + multiset(b);
    }
    PrefixSkipSubsequence(a, x, b);
  }

  /** Every element passes `p`. */
  predicate All<T>(xs: seq<T>, p: T -> bool) {
    forall i :: 0 <= i < |xs| ==> p(xs[i])
  }

  lemma PrependKeepsAll<T>(x: T, xs: seq<T>, p: T -> bool)
    requires All(xs, p) && p(x)
    ensures All([x] + xs, p)
  {
    var r := [x] + xs;
    forall i | 0 <= i < |r|
      ensures p(r[i])
    {
      if i > 0 {
        assert r[i] == xs[i - 1];
      }
    }
  }

  lemma ReplaceKeepsAll<T>(xs: seq<T>, k: nat, x: T, p: T -> bool)
    requires k < |xs| && All(xs, p) && p(x)
    ensures All(xs[k := x], p)
  {
  }

  lemma RemoveKeepsAll<T>(xs: seq<T>, k: nat, p: T -> bool)
    requires k < |xs| && All(xs, p)
    ensures All(xs[..k] + xs[k + 1..], p)
  {
    var r := xs[..k] + xs[k + 1..];
    forall i | 0 <= i < |r|
      ensures p(r[i])
    {
      if i < k {
        assert r[i] == xs[i];
      } else {
        assert r[i] == xs[i + 1];
      }
    }
  }

  lemma SplitAround<T>(a: seq<T>, x: T, b: seq<T>)
    ensures a == [] ==> (a + [x] + b)[0] == x && (a + [x] + b)[1..] == b && a + b == b
    ensures a == [] ==> a + [x] + b == [x] + b
    ensures a != [] ==> (a + [x] + b)[0] == a[0] && (a + [x] + b)[1..] == a[1..] + [x] + b
  {
    if a != [] {
      assert a + [x] + b == [a[0]] + (a[1..] + [x] + b);
    }
  }

  lemma ConsConcat<T>(a: seq<T>, b: seq<T>)
    requires a != []
    ensures a + b == [a[0]] + (a[1..] + b)
  {
    assert a == [a[0]] + a[1..];
  }
}

=== FILE: shared.dfy ===
/** Text normalisation, duplicate detection and the configured backend. */
module Shared {
  import opened Wrappers
  import opened JsString
  import opened Types

  /** The canonical form `Normalize` produces: no whitespace at either end,
      whitespace only as single ' ' characters, and no upper-case letters. */
  predicate Canonical(s: string) {
    && (s == [] || (!IsSpace(s[0]) && !IsSpace(s[|s| - 1])))
    && SingleSpaced(s)
    && NoUpper(s)
  }

  /** `normalize`: trim, lower-case, then collapse each whitespace run. */
  function Normalize(s: string): (r: string)
    ensures Canonical(r)
  {
    CollapseSpaces(Lower(Trim(s)))
  }

  lemma {:induction false} CollapseFixesSingleSpaced(s: string)
    requires SingleSpaced(s)
    ensures CollapseSpaces(s) == s
    decreases |s|
  {
    if s != [] {
      var tail := s[1..];
      SingleSpacedTail(s);
      CollapseFixesSingleSpaced(tail);
      if IsSpace(s[0]) {
        CollapseOfSpace(s);
        assert tail == [] || !IsSpace(tail[0]) by {
          if tail != [] {
            assert tail[0] == s[1];
          }
        }
        assert TrimStart(s) == TrimStart(tail);
        TrimStartOfUnpadded(tail);
        assert s[0] == ' ';
      } else {
        CollapseOfNonSpace(s);
      }
      HeadTail(s);
    }
  }

  lemma SingleSpacedTail(s: string)
    requires s != [] && SingleSpaced(s)
    ensures SingleSpaced(s[1..])
  {
    var t := s[1..];
    forall i | 0 <= i < |t| && IsSpace(t[i])
      ensures t[i] == ' ' && (i + 1 < |t| ==> !IsSpace(t[i + 1]))
    {
      assert t[i] == s[i + 1];
      if i + 1 < |t| {
        assert t[i + 1] == s[i + 2];
      }
    }
  }

  /** A canonical string is its own normal form. */
  lemma NormalizeFixesCanonical(s: string)
    requires Canonical(s)
    ensures Normalize(s) == s
  {
    TrimOfUnpadded(s);
    LowerOfNoUpper(s);
    CollapseFixesSingleSpaced(s);
  }

  /** Normalising twice is normalising once. */
  lemma NormalizeIdempotent(s: string)
    ensures Normalize(Normalize(s)) == Normalize(s)
  {
    NormalizeFixesCanonical(Normalize(s));
  }

  lemma {:induction false} TrimStartLower(s: string)
    ensures TrimStart(Lower(s)) == Lower(TrimStart(s))
    decreases |s|
  {
    if s != [] {
      assert Lower(s)[1..] == Lower(s[1..]);
      TrimStartLower(s[1..]);
    }
  }

  lemma {:induction false} TrimEndLower(s: string)
    ensures TrimEnd(Lower(s)) == Lower(TrimEnd(s))
    decreases |s|
  {
    if s != [] {
      assert Lower(s)[..|s| - 1] == Lower(s[..|s| - 1]);
      TrimEndLower(s[..|s| - 1]);
    }
  }

  /** Trimming and lower-casing commute, since lower-casing never creates or
      removes whitespace. */
  lemma TrimLower(s: string)
    ensures Trim(Lower(s)) == Lower(Trim(s))
  {
    TrimStartLower(s);
    TrimEndLower(TrimStart(s));
  }

  /** Normalisation ignores letter case. */
  lemma NormalizeIgnoresCase(s: string)
    ensures Normalize(Lower(s)) == Normalize(s)
  {
    TrimLower(s);
    LowerIdempotent(Trim(s));
  }

  /** Trimming first does not change the normal form. */
  lemma NormalizeTrim(s: string)
    ensures Normalize(Trim(s)) == Normalize(s)
  {
    TrimIdempotent(s);
  }

  /** Some todo in `todos` has normalised text `n`. */
  predicate AnyNormalizesTo(n: string, todos: seq<Todo>)
    ensures AnyNormalizesTo(n, todos) <==> exists t :: t in todos && Normalize(t.todo) == n
  {
    if todos == [] then false
    else Normalize(todos[0].todo) == n || AnyNormalizesTo(n, todos[1..])
  }

  /** `isDuplicate(q, todos)`. */
  predicate IsDuplicate(q: string, todos: seq<Todo>)
    ensures IsDuplicate(q, todos) <==>
      Normalize(q) != [] && exists t :: t in todos && Normalize(t.todo) == Normalize(q)
  {
    var n := Normalize(q);
    n != [] && AnyNormalizesTo(n, todos)
  }

  /** A query that normalises to nothing (all whitespace, say) is never a
      duplicate, and nothing is a duplicate against an empty list. */
  lemma NeverDuplicateOfEmpty(q: string, todos: seq<Todo>)
    ensures Normalize(q) == [] ==> !IsDuplicate(q, todos)
    ensures !IsDuplicate(q, [])
  {
  }

  /** More todos never turn a duplicate into a non-duplicate. */
  lemma IsDuplicateMonotone(q: string, todos: seq<Todo>, more: seq<Todo>)
    requires forall t :: t in todos ==> t in more
    requires IsDuplicate(q, todos)
    ensures IsDuplicate(q, more)
  {
  }

  /** `isDuplicate` sees the query only through its normal form. */
  lemma IsDuplicateOnlyThroughNormalize(q1: string, q2: string, todos: seq<Todo>)
    requires Normalize(q1) == Normalize(q2)
    ensures IsDuplicate(q1, todos) == IsDuplicate(q2, todos)
  {
  }

  /** The two storage backends `backendMode` chooses between. */
  datatype Backend = Supabase | Dummy

  /** `backendMode`: the first of NEXT_PUBLIC_DATA_BACKEND and DATA_BACKEND
      that is set, lower-cased, decides; "dummy" when neither is set. */
  function BackendMode(env: Env): (r: Backend)
    ensures env.nextPublicDataBackend.Some? ==>
      (r == Dummy <==> Lower(env.nextPublicDataBackend.value) == "dummy")
    ensures env.nextPublicDataBackend.None? && env.dataBackend.Some? ==>
      (r == Dummy <==> Lower(env.dataBackend.value) == "dummy")
    ensures env.nextPublicDataBackend.None? && env.dataBackend.None? ==> r == Dummy
  {
    var v := Lower(env.nextPublicDataBackend.GetOr(env.dataBackend.GetOr("dummy")));
    if v == "dummy" then Dummy else Supabase
  }
}

=== FILE: types.dfy ===
/** The record the whole application passes around, and the process
    environment variables the core reads. */
module Types {
  import opened Wrappers

  /** One todo item; `createdAt` is an ISO-8601 timestamp string. */
  datatype Todo = Todo(id: string, todo: string, isCompleted: bool, createdAt: string)

  /** The environment variables consulted by the backend and mode selection;
      `None` is an unset variable. */
  datatype Env = Env(
    nextPublicDataBackend: Option<string>,
    dataBackend: Option<string>,
    todoModeDefault: Option<string>,
    nextPublicTodoModeDefault: Option<string>)

  // ------------------------------------------------- lookup by id

  /** `i` is the first position of `todos` holding `id`. */
  predicate FirstMatch(todos: seq<Todo>, id: string, i: int) {
    && 0 <= i < |todos|
    && todos[i].id == id
    && forall j :: 0 <= j < i ==> todos[j].id != id
  }

  predicate Absent(todos: seq<Todo>, id: string) {
    forall i :: 0 <= i < |todos| ==> todos[i].id != id
  }

  /** `findIndex(t => t.id === id)`, with `None` for -1; `find` is the record at that index. */
  function FindIndex(todos: seq<Todo>, id: string): (r: Option<nat>)
    ensures r.None? <==> Absent(todos, id)
    ensures r.Some? ==> FirstMatch(todos, id, r.value)
  {
    if todos == [] then None
    else if todos[0].id == id then Some(0)
    else
      match FindIndex(todos[1..], id)
      case None => None
      case Some(k) => Some(k + 1)
  }

  /** No two records share an id. */
  predicate UniqueIds(todos: seq<Todo>) {
    forall i, j :: 0 <= i < j < |todos| ==> todos[i].id != todos[j].id
  }
}

=== FILE: words.dfy ===
/** A reference description of normalised text, independent of how
    `Normalize` computes it: the lower-cased words of the input joined by
    single spaces. */
module Words {
  import opened JsString
  import opened Shared

  predicate NoSpace(w: string) {
    forall i :: 0 <= i < |w| ==> !IsSpace(w[i])
  }

  /** A list of words as `Words` produces them: each non-empty and free of
      whitespace. */
  predicate WellFormed(ws: seq<string>) {
    forall k :: 0 <= k < |ws| ==> ws[k] != [] && NoSpace(ws[k])
  }

  /** The longest whitespace-free prefix of `s`. */
  function WordAt(s: string): (w: string)
    ensures w <= s && NoSpace(w)
    ensures |w| < |s| ==> IsSpace(s[|w|])
  {
    if s == [] || IsSpace(s[0]) then [] else [s[0]] + WordAt(s[1..])
  }

  /** The maximal runs of non-whitespace characters of `s`, in order. */
  function Words(s: string): (ws: seq<string>)
    ensures WellFormed(ws)
    decreases |s|
  {
    if s == [] then []
    else if IsSpace(s[0]) then Words(s[1..])
    else
      var w := WordAt(s);
      [w] + Words(s[|w|..])
  }

  /** The words joined by single spaces. */
  function Join(ws: seq<string>): string {
    if ws == [] then []
    else if |ws| == 1 then ws[0]
    else ws[0] + [' '] + Join(ws[1..])
  }

  lemma {:induction false} WordAtOfWordThenSpace(w: string, rest: string)
    requires NoSpace(w)
    requires rest == [] || IsSpace(rest[0])
    ensures WordAt(w + rest) == w
    decreases |w|
  {
    if w != [] {
      assert (w + rest)[1..] == w[1..] + rest;
      WordAtOfWordThenSpace(w[1..], rest);
    } else {
      assert w + rest == rest;
    }
  }

  lemma WordsOfWordThenSpace(w: string, rest: string)
    requires w != [] && NoSpace(w)
    requires rest == [] || IsSpace(rest[0])
    ensures Words(w + rest) == [w] + Words(rest)
  {
    WordAtOfWordThenSpace(w, rest);
    assert (w + rest)[|w|..] == rest;
  }

  lemma {:induction false} WordsSkipsLeadingSpace(p: string, y: string)
    requires AllSpace(p)
    ensures Words(p + y) == Words(y)
    decreases |p|
  {
    if p != [] {
      assert (p + y)[1..] == p[1..] + y;
      WordsSkipsLeadingSpace(p[1..], y);
    } else {
      assert p + y == y;
    }
  }

  lemma {:induction false} WordAtIgnoresTrailingSpace(y: string, q: string)
    requires AllSpace(q)
    ensures WordAt(y + q) == WordAt(y)
    decreases |y|
  {
    if y == [] {
      assert y + q == q;
    } else if !IsSpace(y[0]) {
      assert (y + q)[1..] == y[1..] + q;
      WordAtIgnoresTrailingSpace(y[1..], q);
    }
  }

  lemma {:induction false} WordsIgnoresTrailingSpace(y: string, q: string)
    requires AllSpace(q)
    ensures Words(y + q) == Words(y)
    decreases |y|
  {
    if y == [] {
      assert y + q == q + [];
      WordsSkipsLeadingSpace(q, []);
    } else if IsSpace(y[0]) {
      assert (y + q)[1..] == y[1..] + q;
      WordsIgnoresTrailingSpace(y[1..], q);
    } else {
      var w := WordAt(y);
      WordAtIgnoresTrailingSpace(y, q);
      assert (y + q)[|w|..] == y[|w|..] + q;
      WordsIgnoresTrailingSpace(y[|w|..], q);
    }
  }

  lemma {:induction false} WordsOfTrimStart(s: string)
    ensures Words(TrimStart(s)) == Words(s)
    decreases |s|
  {
    if s != [] && IsSpace(s[0]) {
      WordsOfTrimStart(s[1..]);
    }
  }

  lemma WordsOfTrimEnd(s: string)
    ensures Words(TrimEnd(s)) == Words(s)
  {
    var r := TrimEnd(s);
    var q := s[|r|..];
    assert s == r + q;
    assert AllSpace(q) by {
      forall i | 0 <= i < |q|
        ensures IsSpace(q[i])
      {
        assert q[i] == s[|r| + i];
      }
    }
    WordsIgnoresTrailingSpace(r, q);
  }

  /** Whitespace around the text does not change its words. */
  lemma WordsOfTrim(s: string)
    ensures Words(Trim(s)) == Words(s)
  {
    var t := TrimStart(s);
    assert Trim(s) == TrimEnd(t);
    WordsOfTrimEnd(t);
    WordsOfTrimStart(s);
  }

  lemma {:induction false} CollapseOfWordThenRest(w: string, rest: string)
    requires NoSpace(w)
    ensures CollapseSpaces(w + rest) == w + CollapseSpaces(rest)
    decreases |w|
  {
    if w == [] {
      assert w + rest == rest;
    } else {
      var x := w + rest;
      CollapseOfNonSpace(x);
      assert x[1..] == w[1..] + rest;
      CollapseOfWordThenRest(w[1..], rest);
      assert w == [w[0]] + w[1..];
      ConsAppend(w[0], w[1..], CollapseSpaces(rest));
    }
  }

  /** Sequence associativity, as a lemma so that the collapse facts in scope
      at its call stay out of its proof. */
  lemma ConsAppend(a: char, b: string, c: string)
    ensures [a] + (b + c) == ([a] + b) + c
  {
  }

  /** Text that starts with a non-whitespace character has a word. */
  lemma WordsOfUnpadded(t: string)
    requires t != [] && !IsSpace(t[0])
    ensures Words(t) != []
  {
  }

  lemma JoinCons(w: string, ws: seq<string>)
    requires ws != []
    ensures Join([w] + ws) == w + ([' '] + Join(ws))
  {
    assert ([w] + ws)[1..] == ws;
  }

  /** What remains after the first word of text with no whitespace at
      either end: nothing, or whitespace followed by such text again. */
  lemma RestAfterWord(x: string, w: string, rest: string)
    requires x != [] && !IsSpace(x[|x| - 1])
    requires x == w + rest && w != []
    requires rest != []
    ensures var t := TrimStart(rest);
      t != [] && !IsSpace(t[0]) && !IsSpace(t[|t| - 1]) && |t| < |x|
  {
    var t := TrimStart(rest);
    assert rest[|rest| - 1] == x[|x| - 1];
    assert t != [];
    assert t[|t| - 1] == rest[|rest| - 1];
  }

  /** On text with no whitespace at either end, collapsing whitespace runs
      is joining the words with single spaces. */
  lemma {:induction false} CollapseIsJoin(x: string)
    requires x == [] || (!IsSpace(x[0]) && !IsSpace(x[|x| - 1]))
    ensures CollapseSpaces(x) == Join(Words(x))
    decreases |x|
  {
    if x != [] {
      var w := WordAt(x);
      var rest := x[|w|..];
      assert x == w + rest;
      WordsOfWordThenSpace(w, rest);
      CollapseOfWordThenRest(w, rest);
      if rest == [] {
        assert w + [] == w;
      } else {
        var t := TrimStart(rest);
        RestAfterWord(x, w, rest);
        assert Words(rest) == Words(t) by {
          WordsOfTrimStart(rest);
        }
        assert CollapseSpaces(rest) == [' '] + CollapseSpaces(t) by {
          assert rest[0] == x[|w|];
          CollapseOfSpace(rest);
        }
        CollapseIsJoin(t);
        WordsOfUnpadded(t);
        JoinCons(w, Words(t));
      }
    }
  }

  /** One space if `b`, otherwise nothing. */
  function Pad(b: bool): string {
    if b then [' '] else []
  }

  /** Text that ends in a non-whitespace character has a word. */
  lemma WordsOfNonSpaceEnd(x: string)
    requires x != [] && !IsSpace(x[|x| - 1])
    ensures Words(x) != []
  {
    var t := TrimStart(x);
    assert t != [];
    WordsOfTrimStart(x);
    WordsOfUnpadded(t);
  }

  /** What `s.replace(/\s+/g, " ")` should give, described through words:
      the words of `s` joined by single spaces, with one space in front when
      `s` starts with whitespace and one behind when `s` has a word and ends
      with whitespace. Text that is all whitespace becomes one space. */
  function SpacedWords(s: string): string {
    Pad(s != [] && IsSpace(s[0])) + Join(Words(s)) + Pad(Words(s) != [] && IsSpace(s[|s| - 1]))
  }

  /** Collapsing whitespace runs is `SpacedWords`, on every text. */
  lemma {:induction false} CollapseIsSpacedWords(s: string)
    ensures CollapseSpaces(s) == SpacedWords(s)
    decreases |s|
  {
    if s == [] {
    } else if IsSpace(s[0]) {
      var t := TrimStart(s);
      if t != [] {
        CollapseIsSpacedWords(t);
      }
      CollapseOfSpace(s);
      WordsOfTrimStart(s);
      assert t != [] ==> t[|t| - 1] == s[|s| - 1];
      SpacedAfterSpace(s, t, CollapseSpaces(s), CollapseSpaces(t));
    } else {
      var w := WordAt(s);
      var rest := s[|w|..];
      if rest != [] {
        CollapseIsSpacedWords(rest);
      }
      assert w != [];
      PrefixThenRest(s, w);
      CollapseOfWordThenRest(w, rest);
      SpacedAfterWord(s, w, rest, CollapseSpaces(s), CollapseSpaces(rest));
    }
  }

  /** The step of `CollapseIsSpacedWords` for text starting with whitespace:
      `c` is its collapse, one space and then the collapse `ct` of what
      follows the leading whitespace run, `t`. */
  lemma SpacedAfterSpace(s: string, t: string, c: string, ct: string)
    requires s != [] && IsSpace(s[0])
    requires Words(t) == Words(s)
    requires t != [] ==> !IsSpace(t[0]) && t[|t| - 1] == s[|s| - 1]
    requires c == [' '] + ct
    requires t == [] ==> ct == []
    requires t != [] ==> ct == SpacedWords(t)
    ensures c == SpacedWords(s)
  {
    var ws := Words(s);
    var tail := Pad(ws != [] && IsSpace(s[|s| - 1]));
    SpacedWordsOfSpaced(s);
    if t == [] {
      assert tail == [];
      assert c == [' '] + Join(ws) + tail by {
        assert c == [' '] + [] + [];
      }
    } else {
      SpacedWordsOfUnpadded(t);
      assert ct == Join(ws) + tail;
      assert [' '] + (Join(ws) + tail) == [' '] + Join(ws) + tail;
    }
  }

  lemma SpacedWordsOfSpaced(s: string)
    requires s != [] && IsSpace(s[0])
    ensures SpacedWords(s) == [' '] + Join(Words(s)) + Pad(Words(s) != [] && IsSpace(s[|s| - 1]))
  {
  }

  lemma SpacedWordsOfUnpadded(t: string)
    requires t != [] && !IsSpace(t[0])
    ensures SpacedWords(t) == Join(Words(t)) + Pad(Words(t) != [] && IsSpace(t[|t| - 1]))
  {
  }

  /** A prefix followed by what remains is the whole; a lemma for the same
      reason as `ConsAppend`. */
  lemma PrefixThenRest(s: string, w: string)
    requires w <= s
    ensures s == w + s[|w|..]
  {
  }

  /** The step of `CollapseIsSpacedWords` for text starting with a word `w`:
      `c` is its collapse, the word and then the collapse `cr` of the rest. */
  lemma SpacedAfterWord(s: string, w: string, rest: string, c: string, cr: string)
    requires s != [] && !IsSpace(s[0]) && s == w + rest && w != [] && NoSpace(w)
    requires rest == [] || IsSpace(rest[0])
    requires c == w + cr
    requires rest == [] ==> cr == []
    requires rest != [] ==> cr == SpacedWords(rest)
    ensures c == SpacedWords(s)
  {
    WordsOfWordThenSpace(w, rest);
    if rest == [] {
      assert s[|s| - 1] == w[|w| - 1];
      assert w + [] == w;
    } else if Words(rest) == [] {
      assert IsSpace(rest[|rest| - 1]) by {
        if !IsSpace(rest[|rest| - 1]) {
          WordsOfNonSpaceEnd(rest);
        }
      }
      assert rest[|rest| - 1] == s[|s| - 1];
    } else {
      SpacedAfterWordThenWords(s, w, rest, cr);
    }
  }

  lemma SpacedAfterWordThenWords(s: string, w: string, rest: string, cr: string)
    requires s == w + rest && w != [] && rest != [] && IsSpace(rest[0]) && !IsSpace(s[0])
    requires Words(s) == [w] + Words(rest) && Words(rest) != []
    requires cr == SpacedWords(rest)
    ensures w + cr == SpacedWords(s)
  {
    var j := Join(Words(rest));
    var tail := Pad(IsSpace(s[|s| - 1]));
    assert cr == [' '] + j + tail by {
      assert rest[|rest| - 1] == s[|s| - 1];
    }
    assert SpacedWords(s) == (w + ([' '] + j)) + tail by {
      JoinCons(w, Words(rest));
    }
  }

  /** The reference description: the normal form of `s` is the words of
      its lower-cased text joined by single spaces. */
  lemma NormalizeIsJoinedWords(s: string)
    ensures Normalize(s) == Join(Words(Lower(s)))
  {
    TrimLower(s);
    CollapseIsJoin(Trim(Lower(s)));
    WordsOfTrim(Lower(s));
  }

  /** Splitting joined words gives the words back. */
  lemma {:induction false} WordsOfJoin(ws: seq<string>)
    requires WellFormed(ws)
    ensures Words(Join(ws)) == ws
    decreases |ws|
  {
    if |ws| == 1 {
      WordsOfWordThenSpace(ws[0], []);
      assert ws[0] + [] == ws[0];
    } else if |ws| > 1 {
      WordsOfJoin(ws[1..]);
      assert ws[0] + [' '] + Join(ws[1..]) == ws[0] + ([' '] + Join(ws[1..]));
      WordsOfWordThenSpace(ws[0], [' '] + Join(ws[1..]));
      WordsSkipsLeadingSpace([' '], Join(ws[1..]));
    }
  }

  /** Two texts have the same normal form exactly when they have the same
      lower-cased words: normalisation forgets case and the length and kind
      of whitespace runs, and nothing else. */
  lemma SameNormalFormIffSameWords(a: string, b: string)
    ensures Normalize(a) == Normalize(b) <==> Words(Lower(a)) == Words(Lower(b))
  {
    NormalizeIsJoinedWords(a);
    NormalizeIsJoinedWords(b);
    WordsOfJoin(Words(Lower(a)));
    WordsOfJoin(Words(Lower(b)));
  }
}

=== FILE: wrappers.dfy ===
/** Failure-carrying datatypes shared by the whole model: `Option` for the
    JavaScript values that may be `undefined` or `null`, `Result` for operations
    that either return a value or throw an `Error` with a message. */
module Wrappers {

  datatype Option<+T> = None | Some(value: T) {

    /** JavaScript's `x ?? fallback`: the fallback is used only when `x` is
        missing. */
    function GetOr(fallback: T): T {
      if Some? then value else fallback
    }
  }

  datatype Result<+R, +E> = Success(value: R) | Failure(error: E)
}
